=== FILE: README.md ===
# A model of the decision logic of a Supabase chat client

The client is a single-room encrypted chat written in React on top of
Supabase. Almost all of it is rendering and backend calls. Beneath that sit
small, sequential decisions, and this project states each of them as a pure
Dafny function over immutable data:

- the message list of a room (`ChatStore`, from `useChat.js`):
  - the initial page replaces the list;
  - an older page is put in front of it;
  - realtime INSERT/UPDATE/DELETE events change it;
  - presence snapshots are turned into a de-duplicated list of online names;
- the search over the loaded messages and its circular cursor (`Search`, from `useSearch.js`);
- the list view (`MessageList`): reply-parent lookup, search highlight, the "load older chats" button and the scroll effect;
- one chat bubble (`MessageItem`): reaction badges, attachment kind, reply quote, emoji picker;
- the input form's submit guard and its administration trigger phrase (`MessageInput`);
- sending a message or saving an edit, and the delete dialog (`App`);
- joining a room by its secret code (`Login`);
- toggling a reaction on the `message_reactions` table (`Reactions`);
- listing, creating, editing and deleting rooms (`RoomManager`);
- the encrypt/decrypt wrapper around AES (`Crypto`).

The shared records are in `Records`. The string helpers are in `Text`: JavaScript's `trim`, ASCII lower-casing, prefix, suffix and substring tests, and the decimal rendering of numeric ids.

Conventions of the model:
- Every table is a sequence of rows.
- Everything the backend decides is a parameter of the function that reacts to it: a fetch's rows or error, a write's success, an id the database assigns, an upload's public URL.
- AES is a `Cipher`, a pair of functions that either throw or return a string. Nothing is assumed about it except in the requires of the lemmas that say so (`Crypto.InvertsOn`).
- A row id can be a number or a string. Comparisons written with `String(id)` go through `IdKey`; `===` on ids is datatype equality.

Where the code does something a reader might not expect, the model follows the code:
- A realtime INSERT appends the row. It does not check for an existing message with the same id, and it does not place the row by time (`ChatStore.InsertKeepsDuplicates`, `ChatStore.InsertCanBreakOrder`).
- `loadMore` does not consult `hasMore`, so a short page does not end paging (`ChatStore.LoadMoreIgnoresHasMore`).
- A failed upload does not abort the send. The message is still inserted, without an attachment URL (`App.HandleSend`).
- A failed edit or reaction write is only logged to the console, not reported to the user.
- A failed message delete, room delete or room insert is ignored outright: the code never reads the error. A failed room update only keeps the form in edit mode (`RoomManager.SubmitRoom`, `RoomManager.DeleteRoom`, `App.ConfirmDelete`).
- A reply whose parent is not loaded shows no quote at all, rather than a placeholder.
- Encryption fails open: a throwing cipher stores the plaintext (`Crypto.Encrypt`, `Crypto.FailOpenReadsAsSentinel`).

## Model

| member | source | states |
|---|---|---|
| `Text.Trim` | codebase/src/components/chat/MessageInput.jsx:13 | trimming yields the empty string exactly when the text is all JavaScript whitespace; otherwise the result neither starts nor ends with whitespace |
| `Text.TrimPadded` | codebase/src/components/chat/MessageInput.jsx:13 | trimming a string with non-whitespace ends, padded by any whitespace on either side, gives back exactly that string |
| `Text.Lower` | codebase/src/hooks/useSearch.js:17-18 | `toLowerCase` maps each character on its own, keeps the length, and leaves no upper-case ASCII letter |
| `Text.LowerIdempotent` | codebase/src/hooks/useSearch.js:17-18 | lower-casing an already lower-cased string changes nothing |
| `Text.Contains` | codebase/src/hooks/useSearch.js:17-18 | `includes`: the needle occurs at some offset of the string |
| `Text.ContainsBasics` | codebase/src/hooks/useSearch.js:17-18 | `includes` finds the empty string and the string itself in any string, and never finds a longer string |
| `Text.ContainsInMiddle` | codebase/src/hooks/useSearch.js:17-18 | a needle found in a part of a string is found in the whole string |
| `Text.NatToString` | codebase/src/hooks/useChat.js:85 | `String(n)` of a number is non-empty decimal digits without a leading zero |
| `Text.NatToStringRoundTrip` | codebase/src/hooks/useChat.js:85 | reading the decimal rendering back as digits gives the number |
| `Text.NatToStringShort` | codebase/src/hooks/useChat.js:85 | `String(n)` is a single digit exactly for the numbers below ten |
| `Text.NatToStringInjective` | codebase/src/hooks/useChat.js:85 | different numbers have different `String(n)` renderings |
| `Records.IdKey` | codebase/src/hooks/useChat.js:85 | `String(id)`: a numeric id reads as its decimal digits, a string id as itself |
| `Records.NullableKey` | codebase/src/components/chat/MessageList.jsx:59 | `String(reply_to_id)`, with a missing id reading "null" |
| `Records.Truthy` | codebase/src/App.jsx:39 | JavaScript truthiness of an id: the number 0 and the empty string are falsy |
| `Records.IdKeyEqual` | codebase/src/hooks/useChat.js:85 | two ids have equal `String(id)` exactly when they are the same id, or a number and the string of its decimal digits |
| `Records.NullableKeyMatches` | codebase/src/components/chat/MessageList.jsx:59 | `String(null)` is "null", so a missing reply id matches no numeric id and only the string id "null"; a present id reads as itself |
| `Records.TruthyByKey` | codebase/src/App.jsx:39 | a numeric id is falsy exactly when it reads "0", and a string id exactly when it is empty |
| `Crypto.Encrypt` | codebase/src/services/crypto.js:5-13 | empty text stays empty; a throwing cipher returns the plaintext unchanged (fail-open); otherwise the result is the cipher's output |
| `Crypto.Decrypt` | codebase/src/services/crypto.js:15-25 | the result is empty exactly when the input is; a non-empty input reads as the cipher's non-empty plaintext, or as "[Encrypted Content]" when the cipher throws or yields nothing |
| `Crypto.RoundTrip` | codebase/src/services/crypto.js:5-25 | when the cipher inverts itself on a text (an assumption, never proved), decrypting its encryption gives the text back |
| `Crypto.FailOpenReadsAsSentinel` | codebase/src/services/crypto.js:9-23 | text whose encryption threw is stored in the clear, and if that does not decrypt (the cipher throws or yields the empty string), readers see the sentinel instead of it |
| `ChatStore.StartFetch` | codebase/src/hooks/useChat.js:15-31 | without a room code or while loading, nothing happens; otherwise loading is set and one query is issued for the room with limit 30, bounded by the oldest loaded timestamp exactly when loading more onto a non-empty list |
| `ChatStore.LoadMore` | codebase/src/hooks/useChat.js:113 | a load-more query is issued exactly when there is a room code and no fetch in flight, whatever `hasMore` says |
| `ChatStore.ProcessPage` | codebase/src/hooks/useChat.js:42-46 | the page is reversed: position i holds row n-1-i, with decrypted content and its reactions or an empty list |
| `ChatStore.Decorate` | codebase/src/hooks/useChat.js:42-46 | a fetched row keeps every column, its content is decrypted, and missing reactions become an empty list |
| `ChatStore.FinishFetch` | codebase/src/hooks/useChat.js:36-56 | loading always ends; an error keeps the messages and `hasMore`; a page sets `hasMore` exactly when it holds 30 rows, and it replaces the list or, when loading more, becomes its prefix with the old list kept as the suffix |
| `ChatStore.ProcessPageAscending` | codebase/src/hooks/useChat.js:25-46 | a page fetched newest first becomes oldest first |
| `ChatStore.OpenRoomFetchesFirstPage` | codebase/src/hooks/useChat.js:9-51 | from the hook's initial state (no messages, not loading, more to load) a room with a code issues one unbounded query for its newest 30 rows, and an answer honouring it leaves the list in chronological order |
| `ChatStore.InitialLoadAscending` | codebase/src/hooks/useChat.js:21-51 | an initial page that honours its query leaves the list in chronological order |
| `ChatStore.LoadOlderAscending` | codebase/src/hooks/useChat.js:25-49 | prepending a page that honours the strictly-older bound keeps a chronological list chronological |
| `ChatStore.LoadMoreIgnoresHasMore` | codebase/src/hooks/useChat.js:55-113 | after a short page `hasMore` is false, yet a later load-more still issues a query |
| `ChatStore.RemoveKey` | codebase/src/hooks/useChat.js:91 | the kept messages are exactly those whose id key differs, in their original order, and the length drops by the number of matches |
| `ChatStore.SubsequenceAscending` | codebase/src/hooks/useChat.js:91 | leaving messages out of a chronological list keeps it chronological |
| `ChatStore.ApplyChange` | codebase/src/hooks/useChat.js:80-94 | INSERT appends one decrypted message with no reactions; UPDATE keeps the length and replaces in place exactly the messages with the new row's id key, keeping their reactions; DELETE keeps exactly the messages with another id key, in their original order, and drops as many as carried the deleted key; any other event changes nothing |
| `ChatStore.Inserted` | codebase/src/hooks/useChat.js:82 | an inserted row keeps every column, its content is decrypted, and it starts without reactions |
| `ChatStore.DeleteKeepsOrder` | codebase/src/hooks/useChat.js:90-92 | a DELETE leaves a subsequence of the list whatever its order, and a chronological list stays chronological |
| `ChatStore.UpdateKeepsOrder` | codebase/src/hooks/useChat.js:84-89 | an UPDATE that keeps creation times keeps chronological order |
| `ChatStore.InsertKeepsDuplicates` | codebase/src/hooks/useChat.js:81-83 | an INSERT echoing a loaded row leaves two messages with its id |
| `ChatStore.InsertCanBreakOrder` | codebase/src/hooks/useChat.js:81-83 | an INSERT older than the last message makes the list non-chronological |
| `ChatStore.UsersOf` | codebase/src/hooks/useChat.js:98 | the names of one key's payloads are exactly their non-empty `user` fields |
| `ChatStore.PresenceNames` | codebase/src/hooks/useChat.js:98 | the flattened names are exactly the non-empty `user` fields of all keys' payloads |
| `ChatStore.UsersOfAppend` | codebase/src/hooks/useChat.js:98 | a payload appended to a key adds its name at the end exactly when the name is truthy, so names follow payload order with repetitions kept |
| `ChatStore.PresenceNamesAppend` | codebase/src/hooks/useChat.js:98 | a key appended to the state adds its names, in order, at the end: the flattened names are the keys' names concatenated in key order |
| `ChatStore.Distinct` | codebase/src/hooks/useChat.js:99-100 | the result has no duplicates, the same members as the input, and keeps the order of first occurrence |
| `ChatStore.SyncPresence` | codebase/src/hooks/useChat.js:96-101 | the online list holds each non-empty presence name once, in order of first occurrence, and the count is its length |
| `Search.MatchIds` | codebase/src/hooks/useSearch.js:15-20 | every id returned belongs to a matching message, and every matching message's id is returned |
| `Search.MatchIdsAppend` | codebase/src/hooks/useSearch.js:15-20 | matches keep message order: appending a message appends its id exactly when it matches |
| `Search.MatchesTerm` | codebase/src/hooks/useSearch.js:16-19 | a message matches when its lower-cased text or lower-cased author name includes the lower-cased, untrimmed term |
| `Search.MatchIgnoresTermCase` | codebase/src/hooks/useSearch.js:16-19 | whether a message matches does not depend on the case of the term, and a term occurring in the text matches whatever surrounds it |
| `Search.FirstMatchIsFirst` | codebase/src/hooks/useSearch.js:15-20 | the first match is the id of the first matching message |
| `Search.Recompute` | codebase/src/hooks/useSearch.js:8-24 | a whitespace-only term gives no matches; otherwise the matches are recomputed; the cursor is 0 with matches and -1 without |
| `Search.JsRem` | codebase/src/hooks/useSearch.js:28 | JavaScript's remainder: the dividend minus the divisor times the quotient rounded toward zero; it equals the mathematical remainder for non-negative dividends and lies in (-b, 0] for negative ones |
| `Search.Next` | codebase/src/hooks/useSearch.js:26-30 | no matches, no change; otherwise a valid cursor advances by one and wraps from the last match to the first |
| `Search.Prev` | codebase/src/hooks/useSearch.js:32-36 | no matches, no change; otherwise a valid cursor steps back by one and wraps from the first match to the last |
| `Search.PrevUndoesNext` | codebase/src/hooks/useSearch.js:26-36 | with a valid cursor, previous after next and next after previous both return to the start |
| `Search.NextNCursor` | codebase/src/hooks/useSearch.js:28 | k steps forward, for k up to the number of matches, move the cursor k places around the circle |
| `Search.NextCycles` | codebase/src/hooks/useSearch.js:28 | as many steps forward as there are matches return to the start |
| `Search.NextNZero` | codebase/src/hooks/useSearch.js:27 | without matches, any number of steps forward changes nothing |
| `Search.Step` | codebase/src/hooks/useSearch.js:8-36 | next and previous keep the message list and move the cursor as `Next` and `Prev` do; a new message list is adopted and the matches recomputed for the current term, with the cursor on the first match or at -1; setting the same term changes nothing, and a different term recomputes the matches over the current list |
| `Search.SessionKeepsCursorValid` | codebase/src/hooks/useSearch.js:4-36 | starting from the hook's initial state (empty term, no matches, cursor -1), any sequence of events keeps the cursor valid |
| `Search.RunKeepsCursorValid` | codebase/src/hooks/useSearch.js:8-36 | any sequence of term changes, list changes and steps keeps the cursor -1 without matches and inside the match list otherwise |
| `MessageList.FindByKey` | codebase/src/components/chat/MessageList.jsx:59 | the first position whose id key is the one sought, or none when no message has it |
| `MessageList.ParentOf` | codebase/src/components/chat/MessageList.jsx:59 | the parent is the first loaded message whose id key equals the reply id's text ("null" without one), and none exists otherwise |
| `MessageList.IsMe` | codebase/src/components/chat/MessageList.jsx:57 | a message is one's own exactly when its author is the logged-in name |
| `MessageList.IsMatch` | codebase/src/components/chat/MessageList.jsx:58 | a message is highlighted when the match under the cursor is its id by `===`; a cursor outside the list reads `undefined` and highlights nothing |
| `MessageList.HighlightIsCurrentMatch` | codebase/src/components/chat/MessageList.jsx:58 | with a valid cursor, exactly the messages with the current match's id are highlighted, and cursor -1 highlights none |
| `MessageList.SearchHighlightsFirstMatch` | codebase/src/components/chat/MessageList.jsx:58 | right after a search, the first matching message is highlighted |
| `MessageList.Bubbles` | codebase/src/components/chat/MessageList.jsx:52-64 | one bubble per message in list order, marked as one's own exactly when the author is the user, highlighted exactly when it is the current match, quoting exactly when a parent is loaded; each bubble is exactly the message's `Render` with those flags and its loaded parent |
| `MessageList.QuoteNamesParent` | codebase/src/components/chat/MessageList.jsx:59 | a reply whose parent is loaded quotes that parent's author |
| `MessageList.LoadMoreControl` | codebase/src/components/chat/MessageList.jsx:39-50 | the button exists exactly when there is more history; it is disabled and reads "Loading..." exactly while loading, and reads "Load older chats" otherwise |
| `MessageList.ScrollEffect` | codebase/src/components/chat/MessageList.jsx:15-31 | without a container nothing changes; otherwise count and height are recorded; growth near the top of a non-empty list shifts the offset by the added height, any other growth scrolls to the bottom, and no growth never scrolls |
| `MessageList.FirstPageScrollsToBottom` | codebase/src/components/chat/MessageList.jsx:21-27 | the first non-empty list scrolls to the bottom |
| `MessageList.PrependKeepsPlace` | codebase/src/components/chat/MessageList.jsx:21-23 | after an older page is prepended at the top, the new offset plus the old height is the new height |
| `MessageList.ScrollSettles` | codebase/src/components/chat/MessageList.jsx:29-30 | a second run with the same count does not scroll again |
| `MessageItem.Bump` | codebase/src/components/chat/MessageItem.jsx:13 | adding one reaction raises exactly that emoji's count by one, adds its key if new, and keeps keys distinct; a new emoji's badge goes at the end with count 1 and every other badge is unchanged, and an existing emoji leaves every badge in its place |
| `MessageItem.CountEmoji` | codebase/src/components/chat/MessageItem.jsx:12-15 | the reference count of one emoji among the reactions: at most the number of reactions, and zero exactly when no reaction carries that emoji |
| `MessageItem.FirstReaction` | codebase/src/components/chat/MessageItem.jsx:12-15 | the position of the first reaction with an emoji: every earlier reaction carries another emoji, and it is the length of the list exactly when none carries it |
| `MessageItem.GroupReactionsOrder` | codebase/src/components/chat/MessageItem.jsx:12-15 | the badges name exactly the emoji occurring among the reactions, and list them in the order in which each first occurs, which is the key order `Object.entries` renders them in (line 57) |
| `MessageItem.GroupReactions` | codebase/src/components/chat/MessageItem.jsx:12-15 | one badge per emoji, each counting exactly the reactions with that emoji, counts positive and summing to the number of reactions, no badge without reactions |
| `MessageItem.MediaKind` | codebase/src/components/chat/MessageItem.jsx:17-39 | no media for a missing or empty URL; otherwise video when the lower-cased URL ends in .mp4, .webm or .ogg, else PDF when it ends in .pdf, else image |
| `MessageItem.UpperCaseVideoSuffix` | codebase/src/components/chat/MessageItem.jsx:19 | any URL ending in ".MP4" is a video: the suffix is matched on the lower-cased URL |
| `MessageItem.LastSuffixDecides` | codebase/src/components/chat/MessageItem.jsx:19-26 | any URL ending in ".webm" is a video, even when an earlier part of the name ends in ".pdf" |
| `MessageItem.PdfSuffix` | codebase/src/components/chat/MessageItem.jsx:19-30 | any URL ending in ".pdf" is shown as a PDF link |
| `MessageItem.ImageFallback` | codebase/src/components/chat/MessageItem.jsx:19-33 | any URL ending in ".png", and a bare "mp4" without its dot, is shown as an image |
| `MessageItem.ReplyQuote` | codebase/src/components/chat/MessageItem.jsx:44-48 | a quote exactly when there is a parent, naming its author and showing its text, or the attachment label when the text is empty |
| `MessageItem.Render` | codebase/src/components/chat/MessageItem.jsx:41-89 | the sender name only on others' messages, text only when non-empty, badges exactly when there are reactions, a quote exactly with a parent, the five-emoji picker, edit and delete only on one's own; the media is the attachment's `MediaKind`, the quote is the parent's `ReplyQuote`, the badges are exactly `GroupReactions` of the message's reactions, and the picker is exactly the palette |
| `MessageInput.Submit` | codebase/src/components/chat/MessageInput.jsx:9-24 | the trimmed trigger phrase opens the administration, clears the text and keeps the file; blank text without a file changes nothing; anything else sends the untrimmed text and the file once and clears both |
| `MessageInput.PaddedTriggerOpensAdmin` | codebase/src/components/chat/MessageInput.jsx:13-17 | the phrase with any whitespace before and after it opens the administration, clears the text and keeps an attached file unsent |
| `MessageInput.BlankTextWithFileIsSent` | codebase/src/components/chat/MessageInput.jsx:19-21 | whitespace-only text with a file is sent as typed |
| `App.Extension` | codebase/src/App.jsx:50 | the extension is a dot-free suffix of the name, preceded by a dot when shorter than the name, and the whole name when it has no dot |
| `App.Bucket` | codebase/src/App.jsx:52 | chat_videos exactly for video/ types, chat_pdfs exactly for application/pdf, chat_images for everything else |
| `App.Editing` | codebase/src/App.jsx:39 | a send is an edit exactly when the edited id is present and truthy |
| `App.ReplyId` | codebase/src/App.jsx:65 | the reply id is the reply target's id when it is truthy, and null otherwise |
| `App.HandleSend` | codebase/src/App.jsx:36-77 | while editing, one update of that message (encrypted text, edited flag) and editing ends; otherwise an upload to the type's bucket when there is a file, then one insert with the user, room, encrypted text, reply id and the URL only after a successful upload; the reply target is cleared and a failed insert alerts; every request before the last one is an upload, so each send makes exactly one message write |
| `App.ConfirmDelete` | codebase/src/App.jsx:79-86 | "single" deletes by the dialog's id, any other kind deletes the room's messages, and the dialog closes |
| `App.ApplyDelete` | codebase/src/App.jsx:81-83 | the table keeps exactly the rows the delete filter does not hit |
| `App.ClearHistoryScope` | codebase/src/App.jsx:83 | clearing the history removes every message of the room and no other |
| `App.SingleDeleteScope` | codebase/src/App.jsx:80-81 | deleting one message removes exactly the rows whose id has the same text form as the dialog's id; a dialog without an id deletes nothing |
| `Login.CodeMatches` | codebase/src/components/auth/Login.jsx:18-20 | a room admits a code when its decrypted stored code or its stored code as it is equals the code |
| `Login.FindRoom` | codebase/src/components/auth/Login.jsx:18-21 | the first room whose decrypted or stored code equals the entered one, or none when no room has it |
| `Login.HandleLogin` | codebase/src/components/auth/Login.jsx:10-35 | a failed fetch reads "Connection failed."; a login happens exactly when some room matches, with a cleared error, the entered name and code and the first matching room's name; otherwise "Invalid Secret Code." |
| `Login.SentinelOpensUndecryptableRoom` | codebase/src/components/auth/Login.jsx:19-20 | entering "[Encrypted Content]" opens any room whose stored code does not decrypt, whether the cipher throws or yields the empty string |
| `Login.PlainStoredCodeOpens` | codebase/src/components/auth/Login.jsx:20 | a stored code entered as stored opens its room |
| `Reactions.LookupTriple` | codebase/src/services/reactions.js:12-20 | the lookup fails exactly on a request error or more than one match, finds nothing exactly when no row matches, and otherwise returns the id of a matching row |
| `Reactions.RemoveId` | codebase/src/services/reactions.js:24-27 | the table keeps exactly the rows with another id |
| `Reactions.Toggle` | codebase/src/services/reactions.js:7-41 | any error or an ambiguous lookup changes nothing; with no matching row exactly one row with the triple is appended; with one, exactly the rows with that row's id are deleted |
| `Reactions.OtherTriplesUntouched` | codebase/src/services/reactions.js:13-34 | with unique row ids, rows of any other triple are neither removed nor added |
| `Reactions.ToggleRemovesTriple` | codebase/src/services/reactions.js:22-28 | with unique row ids, an error-free toggle of a triple present once leaves no row of that triple and every other row as it was |
| `Reactions.ToggleAddsTriple` | codebase/src/services/reactions.js:30-35 | an error-free toggle of an absent triple appends one row of it, after which the triple is present exactly once |
| `Reactions.ToggleTwiceFromAbsent` | codebase/src/services/reactions.js:22-36 | two error-free toggles of an absent triple restore the table exactly |
| `Reactions.ToggleTwiceFromPresent` | codebase/src/services/reactions.js:22-36 | two error-free toggles of a triple present once leave it present once and every other row as it was |
| `RoomManager.Decoded` | codebase/src/components/admin/RoomManager.jsx:13-16 | the listing keeps every room's name and position and shows its decrypted code |
| `RoomManager.FetchRooms` | codebase/src/components/admin/RoomManager.jsx:10-18 | a failed fetch keeps the list; otherwise it lists every fetched room with its code decrypted |
| `RoomManager.Rename` | codebase/src/components/admin/RoomManager.jsx:28-31 | exactly the rooms with the old name become the updated room; the rest stay in place |
| `RoomManager.SubmitRoom` | codebase/src/components/admin/RoomManager.jsx:22-39 | a failed write changes nothing and keeps editing; an edit rewrites every room of the edited name with the new name and encrypted code and ends editing; a create appends one room with the encrypted code |
| `RoomManager.DeleteRoom` | codebase/src/components/admin/RoomManager.jsx:41-47 | a declined confirm changes nothing; otherwise the messages filed under the listed code and the rooms of that name go, each delete only if it succeeds |
| `RoomManager.CreatedRoomAdmitsLogin` | codebase/src/components/admin/RoomManager.jsx:34 | a room created with a code the cipher round-trips admits a login with that code |
| `RoomManager.EditShowsEnteredCode` | codebase/src/components/admin/RoomManager.jsx:30 | after an edit, the listing shows the new name and the entered code for every renamed room |
| `RoomManager.DeleteRemovesHistory` | codebase/src/components/admin/RoomManager.jsx:43-44 | deleting a room whose code round-trips removes every message under the code people log in with, keeps every other message, and removes every room of its name |
| `RoomManager.UndecryptableRoomKeepsHistory` | codebase/src/components/admin/RoomManager.jsx:43 | deleting a room whose code does not decrypt (the cipher throws or yields the empty string) removes no message filed under a real code |

## Left out

- MessageItem.GroupReactionsOrder: treats every emoji key as an ordinary string key. JavaScript lists integer-like keys such as "1" first, in numeric order, whatever their insertion order. The picker offers only emoji, which are never such keys.
- React machinery: state hooks, effects, memoisation and stale closures. Each hook is an explicit state record, and each handler is a pure transition on it.
- Supabase queries, writes, storage and realtime channels are not modelled as calls. Their answers are parameters.
- The `isLoading` guard is modelled for one fetch at a time. Overlapping fetches and interleaved realtime events are concurrency.
- AES and the configured key are not modelled. The cipher is an uninterpreted parameter, and its round trip is only ever an assumption.
- Text.Lower folds ASCII letters only. JavaScript's Unicode `toLowerCase` is platform behaviour.
- Object key order in the reaction groups is insertion order. JavaScript lists integer-like keys first, which no emoji is.
- Reactions.ToggleTwiceFromPresent: states that the triple is present once again and that other rows are unchanged, not that the table is restored exactly. The re-inserted row gets a new id and goes to the end of the table, so exact restoration does not hold.
- The check-then-act race between two clients toggling the same reaction at once is concurrency.
- DOM scrolling and `scrollIntoView` are reduced to the scroll action chosen.
- The scroll-to-match effect in `App.jsx` is DOM scrolling, and is left out with it.
- The time formatting of the bubble footer depends on the platform locale.
- The random, time-based upload file names depend on the clock and randomness.
- Push notifications (`usePushNotifications.js`, `send-push`, `sw.js`) are network I/O.
- The header and modal components are pure rendering.
- The Supabase client file is configuration.
- Mismatched prop wiring between components is plumbing (`onCancelReply` versus `onCancelAction`; `loadMore`, `hasMore` and `isLoading` never passed to the list).
- HTML `required` attributes on the login and room forms are browser behaviour, so the model accepts empty names and codes.
- The Cancel button of the delete dialog is pure UI state (it sets only `open: false`).
- The view routing between login, chat and administration is pure UI state.

=== FILE: app.dfy ===
/** `App`: what a submit does with the backend, and what the delete dialog
    deletes. Each backend call is a `Request`; the outcomes the code reacts
    to (the upload, the insert) are parameters. */
module App {
  import opened Text
  import opened Records
  import opened Crypto
  import opened Login

  /** `file.name.split('.').pop()`: the text after the last dot, or the
      whole name when it has none. */
  function Extension(name: string): (ext: string)
    ensures '.' !in ext
    ensures |ext| <= |name| && name[|name| - |ext|..] == ext
    ensures |ext| < |name| ==> name[|name| - |ext| - 1] == '.'
    ensures '.' !in name ==> ext == name
  {
    if name == [] then []
    else if name[|name| - 1] == '.' then []
    else
      var init := name[..|name| - 1];
      var ext := Extension(init) + [name[|name| - 1]];
      assert name == init + [name[|name| - 1]];
      assert '.' !in name ==> '.' !in init;
      ext
  }

  /** The storage bucket for a MIME type. */
  function Bucket(mimeType: string): (b: string)
    ensures b == "chat_videos" <==> StartsWith(mimeType, "video/")
    ensures b == "chat_pdfs" <==> !StartsWith(mimeType, "video/") && mimeType == "application/pdf"
    ensures b == "chat_images" <==> !StartsWith(mimeType, "video/") && mimeType != "application/pdf"
  {
    if StartsWith(mimeType, "video/") then "chat_videos"
    else if mimeType == "application/pdf" then "chat_pdfs"
    else "chat_images"
  }

  /** The columns of an inserted message. */
  datatype NewMessage = NewMessage(
    username: string,
    content: string,
    roomCode: string,
    replyTo: Option<Id>,
    imageUrl: Option<string>)

  datatype Request =
    | UpdateMessage(id: Id, content: string, isEdited: bool)
    | UploadFile(bucket: string, extension: string)
    | InsertMessage(row: NewMessage)

  datatype UploadOutcome = UploadFailed | Uploaded(publicUrl: string)

  /** The reply target and the message being edited, owned by the app. */
  datatype Compose = Compose(replyTo: Option<Message>, editingId: Option<Id>)

  datatype SendResult = SendResult(requests: seq<Request>, compose: Compose, alerted: bool)

  /** `if (editingId)`. */
  predicate Editing(ui: Compose) {
    ui.editingId.Some? && Truthy(ui.editingId.value)
  }

  /** `replyTo?.id || null`. */
  function ReplyId(replyTo: Option<Message>): (r: Option<Id>)
    ensures r.Some? <==> replyTo.Some? && Truthy(replyTo.value.id)
    ensures r.Some? ==> r.value == replyTo.value.id
  {
    match replyTo
    case Some(m) => if Truthy(m.id) then Some(m.id) else None
    case None => None
  }

  /** `handleSendMessage`. While editing, the only request is the update of
      that message (encrypted text, edited flag) and editing ends; the
      reply target is kept. Otherwise a file is uploaded first to the bucket
      of its type, and the message is inserted whether or not the upload
      succeeded, with the public URL only after a successful upload; the
      reply target is cleared whatever the insert answered, and a failed
      insert raises an alert. */
  function HandleSend(c: Cipher, user: Session, ui: Compose, text: string, file: Option<File>,
                      upload: UploadOutcome, insertOk: bool): (r: SendResult)
    ensures Editing(ui) ==>
              && r.requests == [UpdateMessage(ui.editingId.value, Encrypt(c, text), true)]
              && r.compose == Compose(ui.replyTo, None)
              && !r.alerted
    ensures !Editing(ui) ==>
              && |r.requests| == (if file.Some? then 2 else 1)
              && (file.Some? ==> r.requests[0] == UploadFile(Bucket(file.value.mimeType), Extension(file.value.name)))
              && r.requests[|r.requests| - 1].InsertMessage?
              && r.compose == Compose(None, ui.editingId)
              && (r.alerted <==> !insertOk)
    ensures forall i :: 0 <= i < |r.requests| - 1 ==> r.requests[i].UploadFile?
    ensures !Editing(ui) ==>
              var row := r.requests[|r.requests| - 1].row;
              && row.username == user.username
              && row.content == Encrypt(c, text)
              && row.roomCode == user.secretCode
              && row.replyTo == ReplyId(ui.replyTo)
              && (row.imageUrl.Some? <==> file.Some? && upload.Uploaded?)
              && (row.imageUrl.Some? ==> row.imageUrl.value == upload.publicUrl)
  {
    if Editing(ui) then
      SendResult([UpdateMessage(ui.editingId.value, Encrypt(c, text), true)], Compose(ui.replyTo, None), false)
    else
      var url := if file.Some? && upload.Uploaded? then Some(upload.publicUrl) else None;
      var row := NewMessage(user.username, Encrypt(c, text), user.secretCode, ReplyId(ui.replyTo), url);
      var requests :=
        if file.Some? then [UploadFile(Bucket(file.value.mimeType), Extension(file.value.name)), InsertMessage(row)]
        else [InsertMessage(row)];
      SendResult(requests, Compose(None, ui.editingId), !insertOk)
  }

  /** The delete dialog: open or not, the message to delete, and the kind
      ("single", "all", or none). */
  datatype DeleteModal = DeleteModal(open: bool, id: Option<Id>, kind: Option<string>)

  const ClosedModal: DeleteModal := DeleteModal(false, None, None)

  /** The filter of the delete request. */
  datatype DeleteScope = ById(id: Option<Id>) | ByRoom(roomCode: string)

  /** `confirmDelete`: "single" deletes by the dialog's id, any other kind
      deletes the whole room; the dialog closes either way. */
  function ConfirmDelete(modal: DeleteModal, secretCode: string): (r: (DeleteScope, DeleteModal))
    ensures r.1 == ClosedModal
    ensures modal.kind == Some("single") ==> r.0 == ById(modal.id)
    ensures modal.kind != Some("single") ==> r.0 == ByRoom(secretCode)
  {
    if modal.kind == Some("single") then (ById(modal.id), ClosedModal) else (ByRoom(secretCode), ClosedModal)
  }

  /** Whether a delete request with this scope removes the row; the filter
      value is compared in its text form, and a missing id matches nothing. */
  predicate Hits(scope: DeleteScope, row: Row) {
    match scope
    case ById(id) => id.Some? && IdKey(row.id) == IdKey(id.value)
    case ByRoom(code) => row.roomCode == code
  }

  /** The `messages` table after the request. */
  function ApplyDelete(table: seq<Row>, scope: DeleteScope): (r: seq<Row>)
    ensures forall row :: row in r <==> row in table && !Hits(scope, row)
  {
    Filter(table, row => !Hits(scope, row))
  }

  /** Clearing the history removes every message of the room and only
      those. */
  lemma ClearHistoryScope(table: seq<Row>, modal: DeleteModal, secretCode: string)
    requires modal.kind != Some("single")
    ensures var r := ApplyDelete(table, ConfirmDelete(modal, secretCode).0);
            && (forall row :: row in r ==> row.roomCode != secretCode)
            && (forall row :: row in table && row.roomCode != secretCode ==> row in r)
  {
  }

  /** Deleting one message removes exactly the rows whose id reads like the
      dialog's id; a dialog without an id deletes nothing. */
  lemma SingleDeleteScope(table: seq<Row>, modal: DeleteModal, secretCode: string)
    requires modal.kind == Some("single")
    ensures var r := ApplyDelete(table, ConfirmDelete(modal, secretCode).0);
            && (modal.id.None? ==> r == table)
            && (modal.id.Some? ==> forall row :: row in r <==> row in table && IdKey(row.id) != IdKey(modal.id.value))
  {
    if modal.id.None? {
      assert forall i :: 0 <= i < |table| ==> !Hits(ById(None), table[i]);
    }
  }
}

=== FILE: crypto.dfy ===
/** `encryptData` / `decryptData`: the wrapper around AES with the
    configured key. AES itself is not modelled; it is a `Cipher` whose two
    directions either throw or return a string, and the only thing assumed
    about it anywhere is written out in the requires of `RoundTrip`. */
module Crypto {

  datatype Outcome = Threw | Returned(text: string)

  datatype Cipher = Cipher(encrypt: string -> Outcome, decrypt: string -> Outcome)

  /** What undecryptable content reads as. */
  const Sentinel: string := "[Encrypted Content]"

  /** `encryptData`: empty text stays empty; a cipher failure returns the
      plaintext unchanged (fail-open). */
  function Encrypt(c: Cipher, text: string): (r: string)
    ensures text == [] ==> r == []
    ensures c.encrypt(text).Threw? ==> r == text
    ensures text != [] && c.encrypt(text).Returned? ==> r == c.encrypt(text).text
  {
    if text == [] then []
    else
      match c.encrypt(text)
      case Threw => text
      case Returned(ct) => ct
  }

  /** `decryptData`: empty input reads as empty; anything else reads as the
      cipher's non-empty plaintext, or as the sentinel when the cipher
      throws or yields the empty string. */
  function Decrypt(c: Cipher, cipherText: string): (r: string)
    ensures cipherText == [] <==> r == []
    ensures cipherText != [] && (c.decrypt(cipherText) == Returned([]) || c.decrypt(cipherText).Threw?) ==>
              r == Sentinel
    ensures cipherText != [] && c.decrypt(cipherText).Returned? && c.decrypt(cipherText).text != [] ==>
              r == c.decrypt(cipherText).text
  {
    if cipherText == [] then []
    else
      match c.decrypt(cipherText)
      case Threw => Sentinel
      case Returned(pt) => if pt == [] then Sentinel else pt
  }

  /** The cipher inverts itself on `x`: encryption succeeds with a non-empty
      ciphertext that decrypts back to `x`. This is an assumption about AES
      with a fixed key, never a consequence of the model. */
  ghost predicate InvertsOn(c: Cipher, x: string) {
    c.encrypt(x).Returned? && c.encrypt(x).text != [] &&
    c.decrypt(c.encrypt(x).text) == Returned(x)
  }

  lemma RoundTrip(c: Cipher, x: string)
    requires InvertsOn(c, x)
    ensures Decrypt(c, Encrypt(c, x)) == x
  {
  }

  /** The cipher cannot read `x`: decryption throws, or yields the empty
      string, which `decryptData` turns into a throw of its own. */
  ghost predicate Undecryptable(c: Cipher, x: string) {
    c.decrypt(x).Threw? || c.decrypt(x) == Returned([])
  }

  /** The fail-open path: when encryption throws and the stored plaintext
      does not decrypt, readers see the sentinel instead of the text. */
  lemma FailOpenReadsAsSentinel(c: Cipher, x: string)
    requires x != [] && c.encrypt(x).Threw? && Undecryptable(c, x)
    ensures Decrypt(c, Encrypt(c, x)) == Sentinel
  {
  }
}

=== FILE: login.dfy ===
/** `Login`: joining a room by its secret code. All rooms are fetched and
    the first whose stored code, decrypted or as stored, equals the entered
    code is the room joined. */
module Login {
  import opened Records
  import opened Crypto

  /** Who is chatting where: the entered name, the entered code and the
      matched room's name. */
  datatype Session = Session(username: string, secretCode: string, roomName: string)

  const InvalidCode: string := "Invalid Secret Code."
  const ConnectionFailed: string := "Connection failed."

  /** The predicate of `rooms.find`. */
  predicate CodeMatches(c: Cipher, room: Room, code: string) {
    Decrypt(c, room.secretCode) == code || room.secretCode == code
  }

  /** Position of the first room the code opens. */
  function FindRoom(c: Cipher, rooms: seq<Room>, code: string): (r: Option<nat>)
    ensures r.None? <==> forall i :: 0 <= i < |rooms| ==> !CodeMatches(c, rooms[i], code)
    ensures r.Some? ==> r.value < |rooms| && CodeMatches(c, rooms[r.value], code)
    ensures r.Some? ==> forall j :: 0 <= j < r.value ==> !CodeMatches(c, rooms[j], code)
  {
    if rooms == [] then None
    else if CodeMatches(c, rooms[0], code) then Some(0)
    else
      match FindRoom(c, rooms[1..], code)
      case None =>
        assert forall i :: 1 <= i < |rooms| ==> rooms[i] == rooms[1..][i - 1];
        None
      case Some(j) =>
        assert forall i :: 1 <= i <= j ==> rooms[i] == rooms[1..][i - 1];
        Some(j + 1)
  }

  /** The error line after an attempt, and the session when it succeeded. */
  datatype LoginResult = LoginResult(error: string, session: Option<Session>)

  /** `handleLogin`. The error is cleared first. A failed fetch reads
      "Connection failed.", no room that the code opens reads "Invalid
      Secret Code.", and a match logs in with the entered name and code
      (not the stored one) and the room's name. */
  function HandleLogin(c: Cipher, username: string, code: string, fetched: Response<seq<Room>>): (r: LoginResult)
    ensures fetched.Failed? ==> r == LoginResult(ConnectionFailed, None)
    ensures r.session.Some? <==>
              fetched.Data? && exists i :: 0 <= i < |fetched.value| && CodeMatches(c, fetched.value[i], code)
    ensures fetched.Data? && r.session.None? ==> r.error == InvalidCode
    ensures r.session.Some? ==>
              && r.error == []
              && r.session.value.username == username
              && r.session.value.secretCode == code
              && exists i :: (0 <= i < |fetched.value| && CodeMatches(c, fetched.value[i], code) &&
                              r.session.value.roomName == fetched.value[i].roomName &&
                              forall j :: 0 <= j < i ==> !CodeMatches(c, fetched.value[j], code))
  {
    match fetched
    case Failed => LoginResult(ConnectionFailed, None)
    case Data(rooms) =>
      match FindRoom(c, rooms, code)
      case None => LoginResult(InvalidCode, None)
      case Some(i) => LoginResult([], Some(Session(username, code, rooms[i].roomName)))
  }

  /** Entering the sentinel itself opens any room whose stored code does
      not decrypt. */
  lemma SentinelOpensUndecryptableRoom(c: Cipher, username: string, rooms: seq<Room>, i: nat)
    requires i < |rooms| && rooms[i].secretCode != [] && Undecryptable(c, rooms[i].secretCode)
    ensures HandleLogin(c, username, Sentinel, Data(rooms)).session.Some?
  {
    assert CodeMatches(c, rooms[i], Sentinel);
  }

  /** A code stored without encryption still opens its room. */
  lemma PlainStoredCodeOpens(c: Cipher, username: string, rooms: seq<Room>, i: nat)
    requires i < |rooms|
    ensures HandleLogin(c, username, rooms[i].secretCode, Data(rooms)).session.Some?
  {
    assert CodeMatches(c, rooms[i], rooms[i].secretCode);
  }
}

=== FILE: message_input.dfy ===
/** `MessageInput`: the form at the bottom of the chat. Submitting either
    opens the room administration (a fixed phrase), does nothing (no text
    and no file), or sends the text and the file once and clears both. */
module MessageInput {
  import opened Text
  import opened Records

  /** The phrase that opens the room administration instead of sending. */
  const AdminTrigger: string := "new room creator page"

  datatype InputState = InputState(text: string, file: Option<File>)

  datatype SubmitEffect = OpenAdmin | NoEffect | Send(text: string, file: Option<File>)

  /** `handleSubmit`. The trigger phrase is compared after trimming and wins
      even over an attached file; it clears the text but keeps the file.
      Whitespace-only text without a file is ignored. Anything else is sent
      as typed, untrimmed, and both fields are cleared. */
  function Submit(st: InputState): (r: (InputState, SubmitEffect))
    ensures Trim(st.text) == AdminTrigger ==> r == (st.(text := []), OpenAdmin)
    ensures r.1 == NoEffect <==> Trim(st.text) != AdminTrigger && IsBlank(st.text) && st.file.None?
    ensures r.1 == NoEffect ==> r.0 == st
    ensures r.1.Send? <==> Trim(st.text) != AdminTrigger && (!IsBlank(st.text) || st.file.Some?)
    ensures r.1.Send? ==> r.1.text == st.text && r.1.file == st.file && r.0 == InputState([], None)
  {
    if Trim(st.text) == AdminTrigger then (st.(text := []), OpenAdmin)
    else if Trim(st.text) == [] && st.file.None? then (st, NoEffect)
    else (InputState([], None), Send(st.text, st.file))
  }

  /** The trigger phrase with any whitespace around it still opens the
      administration, and a file attached to it is not sent. */
  lemma PaddedTriggerOpensAdmin(before: string, after: string, file: Option<File>)
    requires IsBlank(before) && IsBlank(after)
    ensures Submit(InputState(before + AdminTrigger + after, file)) == (InputState([], file), OpenAdmin)
  {
    var t := AdminTrigger;
    assert t[0] == 'n' && !IsWhitespace(t[0]);
    assert t[|t| - 1] == 'e' && !IsWhitespace(t[|t| - 1]);
    TrimPadded(before, t, after);
  }

  /** A whitespace-only caption with a file is sent as typed. */
  lemma BlankTextWithFileIsSent(text: string, f: File)
    requires IsBlank(text)
    ensures Submit(InputState(text, Some(f))) == (InputState([], None), Send(text, Some(f)))
  {
  }
}

=== FILE: message_item.dfy ===
/** `MessageItem`: what one chat bubble shows. The reactions are grouped
    into one badge per emoji with its count, the attachment is shown as a
    video, a PDF link or an image depending on the end of its URL, and a
    reply shows a quote of its parent. */
module MessageItem {
  import opened Text
  import opened Records

  /** The emoji the picker offers, in order: thumbs up, red heart, tears of
      joy, open mouth, crying face. */
  const Palette: seq<string> := ["\U{1F44D}", "\U{2764}\U{FE0F}", "\U{1F602}", "\U{1F62E}", "\U{1F622}"]

  /** What the quote shows in place of an empty parent text. */
  const AttachmentLabel: string := "\U{1F4CE} Attachment"

  /** One reaction badge: an emoji and the number of reactions with it. */
  datatype Group = Group(emoji: string, count: nat)

  /** Number of reactions carrying `e`. */
  function CountEmoji(rs: seq<Reaction>, e: string): (n: nat)
    ensures n <= |rs|
    ensures n == 0 <==> forall i :: 0 <= i < |rs| ==> rs[i].emoji != e
  {
    if rs == [] then 0
    else CountEmoji(rs[..|rs| - 1], e) + (if rs[|rs| - 1].emoji == e then 1 else 0)
  }

  function Emojis(gs: seq<Group>): set<string> {
    set i | 0 <= i < |gs| :: gs[i].emoji
  }

  /** Every emoji has at most one badge. */
  predicate DistinctKeys(gs: seq<Group>) {
    gs == [] || (gs[0].emoji !in Emojis(gs[1..]) && DistinctKeys(gs[1..]))
  }

  /** `acc[e]`, read as 0 when the key is missing. */
  function CountOf(gs: seq<Group>, e: string): nat {
    if gs == [] then 0 else if gs[0].emoji == e then gs[0].count else CountOf(gs[1..], e)
  }

  function Total(gs: seq<Group>): nat {
    if gs == [] then 0 else gs[0].count + Total(gs[1..])
  }

  /** `acc[e] = (acc[e] || 0) + 1`: a new key goes to the end, as object
      keys keep their insertion order. */
  function Bump(gs: seq<Group>, e: string): (r: seq<Group>)
    ensures Emojis(r) == Emojis(gs) + {e}
    ensures DistinctKeys(gs) ==> DistinctKeys(r)
    ensures forall x :: CountOf(r, x) == CountOf(gs, x) + (if x == e then 1 else 0)
    ensures Total(r) == Total(gs) + 1
    ensures (forall i :: 0 <= i < |gs| ==> gs[i].count > 0) ==> forall i :: 0 <= i < |r| ==> r[i].count > 0
    ensures e !in Emojis(gs) ==> r == gs + [Group(e, 1)]
    ensures e in Emojis(gs) ==> |r| == |gs| && forall i :: 0 <= i < |gs| ==> r[i].emoji == gs[i].emoji
  {
    if gs == [] then
      EmojisCons(Group(e, 1), []);
      [Group(e, 1)]
    else if gs[0].emoji == e then
      BumpHere(gs, e);
      [Group(e, gs[0].count + 1)] + gs[1..]
    else
      var rest := Bump(gs[1..], e);
      BumpLaterKeys(gs, e, rest);
      BumpLaterCounts(gs, e, rest);
      BumpLaterOrder(gs, e, rest);
      [gs[0]] + rest
  }

  /** The step of `Bump` that finds `e` on the first badge. */
  lemma BumpHere(gs: seq<Group>, e: string)
    requires gs != [] && gs[0].emoji == e
    ensures var r := [Group(e, gs[0].count + 1)] + gs[1..];
            && Emojis(r) == Emojis(gs) + {e}
            && (DistinctKeys(gs) ==> DistinctKeys(r))
            && (forall x :: CountOf(r, x) == CountOf(gs, x) + (if x == e then 1 else 0))
            && Total(r) == Total(gs) + 1
            && ((forall i :: 0 <= i < |gs| ==> gs[i].count > 0) ==> forall i :: 0 <= i < |r| ==> r[i].count > 0)
            && e in Emojis(gs)
            && |r| == |gs| && (forall i :: 0 <= i < |gs| ==> r[i].emoji == gs[i].emoji)
  {
    var r := [Group(e, gs[0].count + 1)] + gs[1..];
    EmojisCons(r[0], gs[1..]);
    EmojisCons(gs[0], gs[1..]);
    assert gs == [gs[0]] + gs[1..];
    assert r[1..] == gs[1..];
  }

  /** The step of `Bump` that passes the first badge by, on the keys:
      given what the recursive call did to the keys of the rest. */
  lemma BumpLaterKeys(gs: seq<Group>, e: string, rest: seq<Group>)
    requires gs != [] && gs[0].emoji != e
    requires Emojis(rest) == Emojis(gs[1..]) + {e}
    requires DistinctKeys(gs[1..]) ==> DistinctKeys(rest)
    ensures Emojis([gs[0]] + rest) == Emojis(gs) + {e}
    ensures DistinctKeys(gs) ==> DistinctKeys([gs[0]] + rest)
  {
    var r := [gs[0]] + rest;
    EmojisCons(gs[0], rest);
    EmojisCons(gs[0], gs[1..]);
    assert gs == [gs[0]] + gs[1..];
    assert r[0] == gs[0] && r[1..] == rest;
  }

  /** The same step on the positions: a new key lands at the end, and an
      existing one leaves every key where it was. */
  lemma BumpLaterOrder(gs: seq<Group>, e: string, rest: seq<Group>)
    requires gs != [] && gs[0].emoji != e
    requires e !in Emojis(gs[1..]) ==> rest == gs[1..] + [Group(e, 1)]
    requires e in Emojis(gs[1..]) ==>
               |rest| == |gs[1..]| && forall i :: 0 <= i < |gs[1..]| ==> rest[i].emoji == gs[1..][i].emoji
    ensures e !in Emojis(gs) ==> [gs[0]] + rest == gs + [Group(e, 1)]
    ensures e in Emojis(gs) ==>
              |[gs[0]] + rest| == |gs| && forall i :: 0 <= i < |gs| ==> ([gs[0]] + rest)[i].emoji == gs[i].emoji
  {
    EmojisCons(gs[0], gs[1..]);
    assert gs == [gs[0]] + gs[1..];
    if e in Emojis(gs) {
      var r := [gs[0]] + rest;
      forall i | 0 <= i < |gs| ensures r[i].emoji == gs[i].emoji {
        if i > 0 { assert r[i] == rest[i - 1] && gs[i] == gs[1..][i - 1]; }
      }
    }
  }

  /** The same step on the counts. */
  lemma BumpLaterCounts(gs: seq<Group>, e: string, rest: seq<Group>)
    requires gs != [] && gs[0].emoji != e
    requires forall x :: CountOf(rest, x) == CountOf(gs[1..], x) + (if x == e then 1 else 0)
    requires Total(rest) == Total(gs[1..]) + 1
    requires (forall i :: 0 <= i < |gs[1..]| ==> gs[1..][i].count > 0) ==>
               forall i :: 0 <= i < |rest| ==> rest[i].count > 0
    ensures forall x :: CountOf([gs[0]] + rest, x) == CountOf(gs, x) + (if x == e then 1 else 0)
    ensures Total([gs[0]] + rest) == Total(gs) + 1
    ensures (forall i :: 0 <= i < |gs| ==> gs[i].count > 0) ==>
              forall i :: 0 <= i < |[gs[0]] + rest| ==> ([gs[0]] + rest)[i].count > 0
  {
    var r := [gs[0]] + rest;
    assert r[0] == gs[0] && r[1..] == rest;
    forall x ensures CountOf(r, x) == CountOf(gs, x) + (if x == e then 1 else 0) {
      assert CountOf(r, x) == if gs[0].emoji == x then gs[0].count else CountOf(rest, x);
    }
    if forall i :: 0 <= i < |gs| ==> gs[i].count > 0 {
      forall i | 0 <= i < |gs[1..]| ensures gs[1..][i].count > 0 {
        assert gs[1..][i] == gs[i + 1];
      }
      forall i | 0 <= i < |r| ensures r[i].count > 0 {
        if i > 0 { assert r[i] == rest[i - 1]; }
      }
    }
  }

  lemma EmojisCons(g: Group, gs: seq<Group>)
    ensures Emojis([g] + gs) == {g.emoji} + Emojis(gs)
  {
    var r := [g] + gs;
    forall x | x in Emojis(gs) ensures x in Emojis(r) {
      var i :| 0 <= i < |gs| && gs[i].emoji == x;
      assert r[i + 1].emoji == x;
    }
    forall x | x in Emojis(r) ensures x in {g.emoji} + Emojis(gs) {
      var i :| 0 <= i < |r| && r[i].emoji == x;
      if i > 0 { assert gs[i - 1].emoji == x; }
    }
    assert r[0].emoji == g.emoji;
  }

  /** `(msg.reactions || []).reduce(...)`: one badge per emoji, in order of
      first appearance, counting exactly the reactions with that emoji. */
  function GroupReactions(rs: seq<Reaction>): (gs: seq<Group>)
    ensures DistinctKeys(gs)
    ensures forall e :: CountOf(gs, e) == CountEmoji(rs, e)
    ensures Total(gs) == |rs|
    ensures forall i :: 0 <= i < |gs| ==> gs[i].count > 0
    ensures |gs| == 0 <==> |rs| == 0
  {
    if rs == [] then []
    else
      var gs := Bump(GroupReactions(rs[..|rs| - 1]), rs[|rs| - 1].emoji);
      assert gs != [] by { assert rs[|rs| - 1].emoji in Emojis(gs); }
      gs
  }

  /** Index of the first reaction carrying `e`, or `|rs|` when none does. */
  function FirstReaction(rs: seq<Reaction>, e: string): (k: nat)
    ensures k <= |rs|
    ensures forall j :: 0 <= j < k ==> rs[j].emoji != e
    ensures k < |rs| ==> rs[k].emoji == e
  {
    if rs == [] then 0
    else if rs[0].emoji == e then 0
    else
      var k := 1 + FirstReaction(rs[1..], e);
      assert forall j :: 1 <= j < k ==> rs[j] == rs[1..][j - 1];
      k
  }

  /** One more reaction leaves every earlier first appearance alone. */
  lemma FirstReactionExtend(rs: seq<Reaction>, e: string)
    requires rs != []
    ensures var p := rs[..|rs| - 1];
            FirstReaction(rs, e) ==
              if FirstReaction(p, e) < |p| then FirstReaction(p, e)
              else if rs[|rs| - 1].emoji == e then |p| else |rs|
  {
    var p := rs[..|rs| - 1];
    assert forall j :: 0 <= j < |p| ==> rs[j] == p[j];
  }

  /** The badges name exactly the emoji that occur in `rs`. */
  ghost predicate BadgesOccur(gs: seq<Group>, rs: seq<Reaction>) {
    forall x :: x in Emojis(gs) <==> FirstReaction(rs, x) < |rs|
  }

  /** The badges are ordered by where their emoji first occur in `rs`. */
  ghost predicate FirstAppearanceOrder(gs: seq<Group>, rs: seq<Reaction>) {
    forall i, j :: 0 <= i < j < |gs| ==> FirstReaction(rs, gs[i].emoji) < FirstReaction(rs, gs[j].emoji)
  }

  /** The step of `GroupReactionsOrder` on which emoji are badged. */
  lemma OccurStep(rs: seq<Reaction>, prev: seq<Group>)
    requires rs != [] && BadgesOccur(prev, rs[..|rs| - 1])
    ensures BadgesOccur(Bump(prev, rs[|rs| - 1].emoji), rs)
  {
    forall x ensures x in Emojis(Bump(prev, rs[|rs| - 1].emoji)) <==> FirstReaction(rs, x) < |rs| {
      FirstReactionExtend(rs, x);
    }
  }

  /** One more reaction does not move the first occurrence of an emoji
      that already has a badge. */
  lemma BadgedFirstsKept(rs: seq<Reaction>, prev: seq<Group>)
    requires rs != [] && BadgesOccur(prev, rs[..|rs| - 1])
    ensures forall x :: x in Emojis(prev) ==>
              FirstReaction(rs, x) == FirstReaction(rs[..|rs| - 1], x) < |rs| - 1
  {
    forall x | x in Emojis(prev) ensures FirstReaction(rs, x) == FirstReaction(rs[..|rs| - 1], x) < |rs| - 1 {
      FirstReactionExtend(rs, x);
    }
  }

  /** The order step for an emoji already badged: every badge stays put. */
  lemma OrderStepOld(rs: seq<Reaction>, prev: seq<Group>)
    requires rs != [] && rs[|rs| - 1].emoji in Emojis(prev)
    requires BadgesOccur(prev, rs[..|rs| - 1]) && FirstAppearanceOrder(prev, rs[..|rs| - 1])
    ensures FirstAppearanceOrder(Bump(prev, rs[|rs| - 1].emoji), rs)
  {
    var gs := Bump(prev, rs[|rs| - 1].emoji);
    BadgedFirstsKept(rs, prev);
    forall i, j | 0 <= i < j < |gs|
      ensures FirstReaction(rs, gs[i].emoji) < FirstReaction(rs, gs[j].emoji)
    {
      assert gs[i].emoji == prev[i].emoji && prev[i].emoji in Emojis(prev);
      assert gs[j].emoji == prev[j].emoji && prev[j].emoji in Emojis(prev);
    }
  }

  /** The order step for an emoji seen for the first time: its badge goes
      last, and it first occurs after every earlier emoji. */
  lemma OrderStepNew(rs: seq<Reaction>, prev: seq<Group>)
    requires rs != [] && rs[|rs| - 1].emoji !in Emojis(prev)
    requires BadgesOccur(prev, rs[..|rs| - 1]) && FirstAppearanceOrder(prev, rs[..|rs| - 1])
    ensures FirstAppearanceOrder(Bump(prev, rs[|rs| - 1].emoji), rs)
  {
    var p, e := rs[..|rs| - 1], rs[|rs| - 1].emoji;
    var gs := Bump(prev, e);
    assert gs == prev + [Group(e, 1)];
    FirstReactionExtend(rs, e);
    assert FirstReaction(rs, e) == |p|;
    BadgedFirstsKept(rs, prev);
    forall i, j | 0 <= i < j < |gs|
      ensures FirstReaction(rs, gs[i].emoji) < FirstReaction(rs, gs[j].emoji)
    {
      var a := prev[i].emoji;
      assert gs[i].emoji == a && a in Emojis(prev);
      assert FirstReaction(rs, a) == FirstReaction(p, a) < |p|;
      if j < |prev| {
        var b := prev[j].emoji;
        assert gs[j].emoji == b && b in Emojis(prev);
        assert FirstReaction(rs, b) == FirstReaction(p, b);
        assert FirstReaction(p, a) < FirstReaction(p, b);
      } else {
        assert gs[j].emoji == e;
      }
    }
  }

  /** The badges are the emoji that occur among the reactions, in the order
      of their first appearance: the key order of the object the component
      builds and then lists with `Object.entries`. */
  lemma {:induction false} GroupReactionsOrder(rs: seq<Reaction>)
    ensures BadgesOccur(GroupReactions(rs), rs)
    ensures FirstAppearanceOrder(GroupReactions(rs), rs)
  {
    if rs != [] {
      var p := rs[..|rs| - 1];
      var prev := GroupReactions(p);
      GroupReactionsOrder(p);
      assert GroupReactions(rs) == Bump(prev, rs[|rs| - 1].emoji);
      OccurStep(rs, prev);
      if rs[|rs| - 1].emoji in Emojis(prev) {
        OrderStepOld(rs, prev);
      } else {
        OrderStepNew(rs, prev);
      }
    }
  }

  /** How an attachment is shown. */
  datatype Media = NoMedia | Video | Pdf | Image

  /** `/\.(mp4|webm|ogg)$/` on the lower-cased URL. */
  predicate IsVideoUrl(url: string) {
    var u := Lower(url);
    EndsWith(u, ".mp4") || EndsWith(u, ".webm") || EndsWith(u, ".ogg")
  }

  predicate IsPdfUrl(url: string) {
    EndsWith(Lower(url), ".pdf")
  }

  /** `renderMedia`: nothing for a missing or empty URL; otherwise video
      before PDF before image. */
  function MediaKind(url: Option<string>): (k: Media)
    ensures k == NoMedia <==> url.None? || url.value == []
    ensures k == Video <==> url.Some? && url.value != [] && IsVideoUrl(url.value)
    ensures k == Pdf <==> url.Some? && url.value != [] && !IsVideoUrl(url.value) && IsPdfUrl(url.value)
    ensures k == Image <==> url.Some? && url.value != [] && !IsVideoUrl(url.value) && !IsPdfUrl(url.value)
  {
    match url
    case None => NoMedia
    case Some(u) =>
      if u == [] then NoMedia
      else if IsVideoUrl(u) then Video
      else if IsPdfUrl(u) then Pdf
      else Image
  }

  /** The suffix is read case-insensitively. */
  lemma UpperCaseVideoSuffix(stem: string)
    ensures MediaKind(Some(stem + ".MP4")) == Video
  {
    var u := Lower(stem + ".MP4");
    assert u[|u| - 4..] == ".mp4";
  }

  /** Only the last suffix counts: a video suffix wins over an earlier
      ".pdf" in the name. */
  lemma LastSuffixDecides(stem: string)
    ensures MediaKind(Some(stem + ".webm")) == Video
  {
    var u := Lower(stem + ".webm");
    assert u[|u| - 5..] == ".webm";
  }

  lemma PdfSuffix(stem: string)
    ensures MediaKind(Some(stem + ".pdf")) == Pdf
  {
    var u := Lower(stem + ".pdf");
    assert u[|u| - 4..] == ".pdf";
    assert u[|u| - 4..][1] == 'p';
    assert |u| >= 5 ==> u[|u| - 5..][1] == '.';
  }

  /** Any other URL is shown as an image, including a bare "mp4" without
      its dot. */
  lemma ImageFallback(stem: string)
    ensures MediaKind(Some(stem + ".png")) == Image
    ensures MediaKind(Some("mp4")) == Image
  {
    var u := Lower(stem + ".png");
    assert u[|u| - 4..][1] == 'p' && u[|u| - 4..][2] == 'n';
    assert |u| >= 5 ==> u[|u| - 5..][1] == '.';
  }

  /** The reply quote: the parent's author and its text, or the attachment
      label when the text is empty. */
  datatype Quote = Quote(author: string, text: string)

  function ReplyQuote(parent: Option<Message>): (q: Option<Quote>)
    ensures q.None? <==> parent.None?
    ensures q.Some? ==> q.value.author == parent.value.username
    ensures q.Some? && parent.value.content != [] ==> q.value.text == parent.value.content
    ensures q.Some? && parent.value.content == [] ==> q.value.text == AttachmentLabel
  {
    match parent
    case None => None
    case Some(p) => Some(Quote(p.username, if p.content == [] then AttachmentLabel else p.content))
  }

  /** Everything one bubble shows. */
  datatype Bubble = Bubble(
    mine: bool,
    highlighted: bool,
    quote: Option<Quote>,
    senderName: Option<string>,
    media: Media,
    text: Option<string>,
    badges: seq<Group>,
    picker: seq<string>,
    canEdit: bool)

  /** The bubble of `msg`: the author's name only on others' messages, text
      only when there is some, a badge bar only when there are reactions,
      and edit and delete only on one's own messages. */
  function Render(msg: Message, isMe: bool, isMatch: bool, parent: Option<Message>): (b: Bubble)
    ensures b.senderName.Some? <==> !isMe
    ensures b.senderName.Some? ==> b.senderName.value == msg.username
    ensures b.text.Some? <==> msg.content != []
    ensures b.text.Some? ==> b.text.value == msg.content
    ensures |b.badges| > 0 <==> |msg.reactions| > 0
    ensures Total(b.badges) == |msg.reactions|
    ensures b.quote.Some? <==> parent.Some?
    ensures |b.picker| == 5 && b.picker[0] == "\U{1F44D}"
    ensures b.canEdit == isMe && b.mine == isMe && b.highlighted == isMatch
    ensures b.media == MediaKind(msg.imageUrl)
    ensures b.quote == ReplyQuote(parent)
    ensures b.badges == GroupReactions(msg.reactions)
    ensures b.picker == Palette
  {
    Bubble(
      isMe,
      isMatch,
      ReplyQuote(parent),
      if isMe then None else Some(msg.username),
      MediaKind(msg.imageUrl),
      if msg.content == [] then None else Some(msg.content),
      GroupReactions(msg.reactions),
      Palette,
      isMe)
  }
}

=== FILE: message_list.dfy ===
/** `MessageList`: the bubbles of the room in list order, each with its
    reply parent and search highlight, the "load older chats" control, and
    the effect that decides, after each change of the message list, whether
    to keep the reader's place or scroll to the bottom. */
module MessageList {
  import opened Records
  import opened Search
  import opened MessageItem

  /** Position of the first message whose `String(id)` is `k`. */
  function FindByKey(ms: seq<Message>, k: string): (r: Option<nat>)
    ensures r.None? <==> forall i :: 0 <= i < |ms| ==> IdKey(ms[i].id) != k
    ensures r.Some? ==> r.value < |ms| && IdKey(ms[r.value].id) == k
    ensures r.Some? ==> forall j :: 0 <= j < r.value ==> IdKey(ms[j].id) != k
  {
    if ms == [] then None
    else if IdKey(ms[0].id) == k then Some(0)
    else
      match FindByKey(ms[1..], k)
      case None =>
        assert forall i :: 1 <= i < |ms| ==> ms[i] == ms[1..][i - 1];
        None
      case Some(j) =>
        assert forall i :: 1 <= i <= j ==> ms[i] == ms[1..][i - 1];
        Some(j + 1)
  }

  /** `messages.find(m => String(m.id) === String(msg.reply_to_id))`: the
      first loaded message that is the parent. A message with no reply
      target looks for the id "null". A parent outside the loaded page is
      not found. */
  function ParentOf(ms: seq<Message>, msg: Message): (p: Option<Message>)
    ensures p.None? <==> forall i :: 0 <= i < |ms| ==> IdKey(ms[i].id) != NullableKey(msg.replyTo)
    ensures p.Some? ==>
              exists i :: (0 <= i < |ms| && ms[i] == p.value &&
                           IdKey(ms[i].id) == NullableKey(msg.replyTo) &&
                           forall j :: 0 <= j < i ==> IdKey(ms[j].id) != NullableKey(msg.replyTo))
  {
    match FindByKey(ms, NullableKey(msg.replyTo))
    case None => None
    case Some(i) => Some(ms[i])
  }

  /** `searchMatches[currentMatchIndex] === msg.id`: an index out of range
      reads `undefined`, which equals no id. */
  predicate IsMatch(matches: seq<Id>, cursor: int, msg: Message) {
    0 <= cursor < |matches| && matches[cursor] == msg.id
  }

  /** With a valid cursor, exactly the messages carrying the current match's
      id are highlighted; with cursor -1, none is. */
  lemma HighlightIsCurrentMatch(s: SearchState, msg: Message)
    requires CursorValid(s)
    ensures s.cursor == -1 ==> !IsMatch(s.matches, s.cursor, msg)
    ensures s.cursor != -1 ==> (IsMatch(s.matches, s.cursor, msg) <==> msg.id == s.matches[s.cursor])
  {
  }

  /** Right after a search, the first message that matches is highlighted. */
  lemma SearchHighlightsFirstMatch(ms: seq<Message>, term: string, i: nat)
    requires !Text.IsBlank(term)
    requires i < |ms| && MatchesTerm(ms[i], term)
    requires forall j :: 0 <= j < i ==> !MatchesTerm(ms[j], term)
    ensures IsMatch(Recompute(ms, term).matches, Recompute(ms, term).cursor, ms[i])
  {
    FirstMatchIsFirst(ms, term, i);
  }

  /** `isMe`. */
  predicate IsMe(msg: Message, username: string) {
    msg.username == username
  }

  /** The list body: one bubble per message, in list order. */
  function Bubbles(ms: seq<Message>, username: string, s: SearchState): (bs: seq<Bubble>)
    ensures |bs| == |ms|
    ensures forall i :: 0 <= i < |ms| ==>
              && (bs[i].mine <==> ms[i].username == username)
              && (bs[i].highlighted <==> IsMatch(s.matches, s.cursor, ms[i]))
              && (bs[i].quote.Some? <==> ParentOf(ms, ms[i]).Some?)
    ensures forall i :: 0 <= i < |ms| ==>
              bs[i] == Render(ms[i], IsMe(ms[i], username), IsMatch(s.matches, s.cursor, ms[i]), ParentOf(ms, ms[i]))
  {
    seq(|ms|, i requires 0 <= i < |ms| =>
      Render(ms[i], IsMe(ms[i], username), IsMatch(s.matches, s.cursor, ms[i]), ParentOf(ms, ms[i])))
  }

  /** A reply whose parent is loaded quotes that parent's author. */
  lemma QuoteNamesParent(ms: seq<Message>, i: nat, p: nat)
    requires i < |ms| && p < |ms| && ms[i].replyTo.Some?
    requires IdKey(ms[p].id) == IdKey(ms[i].replyTo.value)
    requires forall j :: 0 <= j < p ==> IdKey(ms[j].id) != IdKey(ms[i].replyTo.value)
    ensures ParentOf(ms, ms[i]) == Some(ms[p])
    ensures ReplyQuote(ParentOf(ms, ms[i])).Some?
    ensures ReplyQuote(ParentOf(ms, ms[i])).value.author == ms[p].username
  {
    var q := ParentOf(ms, ms[i]);
    var k :| 0 <= k < |ms| && ms[k] == q.value && IdKey(ms[k].id) == IdKey(ms[i].replyTo.value) &&
             forall j :: 0 <= j < k ==> IdKey(ms[j].id) != IdKey(ms[i].replyTo.value);
    assert k == p;
  }

  /** The "load older chats" button. */
  datatype LoadButton = LoadButton(disabled: bool, caption: string)

  /** Shown only while there is more history, disabled while loading. */
  function LoadMoreControl(hasMore: bool, isLoading: bool): (b: Option<LoadButton>)
    ensures b.Some? <==> hasMore
    ensures b.Some? ==> (b.value.disabled <==> isLoading)
    ensures b.Some? ==> (b.value.caption == "Loading..." <==> isLoading)
    ensures b.Some? && !isLoading ==> b.value.caption == "Load older chats"
  {
    if hasMore then Some(LoadButton(isLoading, if isLoading then "Loading..." else "Load older chats"))
    else None
  }

  // ---------------------------------------------------------------------
  // The scroll effect

  /** `prevCount` and `lastScrollHeight`, carried between runs. */
  datatype ScrollMemory = ScrollMemory(prevCount: nat, lastScrollHeight: int)

  const InitialScroll: ScrollMemory := ScrollMemory(0, 0)

  /** The container's measurements when the effect runs. */
  datatype Viewport = Viewport(scrollHeight: int, scrollTop: int)

  datatype ScrollAction = NoScroll | SetScrollTop(top: int) | ScrollToBottom

  /** Within this distance of the top the reader is taken to have asked for
      older messages. */
  const NearTop: int := 100

  /** The effect run after the message list changes. Without a mounted
      container it does nothing at all. When the list grew while the reader
      was near the top of a list that already had messages, the scroll
      offset is moved by the height that was added; any other growth
      scrolls to the bottom. Every run that measures records the count and
      the height. */
  function ScrollEffect(mem: ScrollMemory, count: nat, container: Option<Viewport>): (r: (ScrollMemory, ScrollAction))
    ensures container.None? ==> r == (mem, NoScroll)
    ensures container.Some? ==> r.0 == ScrollMemory(count, container.value.scrollHeight)
    ensures count <= mem.prevCount ==> r.1 == NoScroll
    ensures r.1.SetScrollTop? <==>
              container.Some? && count > mem.prevCount && mem.prevCount != 0 && container.value.scrollTop < NearTop
    ensures r.1.SetScrollTop? ==> r.1.top == container.value.scrollHeight - mem.lastScrollHeight
    ensures r.1.ScrollToBottom? <==>
              container.Some? && count > mem.prevCount && (mem.prevCount == 0 || container.value.scrollTop >= NearTop)
  {
    match container
    case None => (mem, NoScroll)
    case Some(v) =>
      var action :=
        if count > mem.prevCount && v.scrollTop < NearTop && mem.prevCount != 0 then
          SetScrollTop(v.scrollHeight - mem.lastScrollHeight)
        else if count > mem.prevCount then ScrollToBottom
        else NoScroll;
      (ScrollMemory(count, v.scrollHeight), action)
  }

  /** The first list shown scrolls to the bottom. */
  lemma FirstPageScrollsToBottom(count: nat, v: Viewport)
    requires count > 0
    ensures ScrollEffect(InitialScroll, count, Some(v)).1 == ScrollToBottom
  {
  }

  /** After an older page is prepended while the reader is at the top, the
      content that was in view stays in view: the new offset plus the old
      height is the new height. */
  lemma PrependKeepsPlace(mem: ScrollMemory, added: nat, v: Viewport)
    requires mem.prevCount > 0 && added > 0 && v.scrollTop < NearTop
    ensures ScrollEffect(mem, mem.prevCount + added, Some(v)).1.SetScrollTop?
    ensures ScrollEffect(mem, mem.prevCount + added, Some(v)).1.top + mem.lastScrollHeight == v.scrollHeight
  {
  }

  /** A second run with the same count does not scroll again. */
  lemma ScrollSettles(mem: ScrollMemory, count: nat, v: Viewport, w: Option<Viewport>)
    ensures ScrollEffect(ScrollEffect(mem, count, Some(v)).0, count, w).1 == NoScroll
  {
  }
}

=== FILE: reactions.dfy ===
/** `toggleReaction`: look up the reaction row of (message, user, emoji);
    delete it by its id when there is one, insert one otherwise. Every
    backend error is caught and logged, so a toggle always returns and an
    error only stops it where it happened. The `message_reactions` table is
    a sequence of rows; the backend's failures and the id it assigns are
    parameters. */
module Reactions {
  import opened Records

  /** The three filters of the lookup. Filter values travel as text, so the
      message id is compared in its text form. */
  predicate SameTriple(r: Reaction, messageId: Id, username: string, emoji: string) {
    IdKey(r.messageId) == IdKey(messageId) && r.username == username && r.emoji == emoji
  }

  function CountTriple(table: seq<Reaction>, messageId: Id, username: string, emoji: string): (n: nat)
    ensures n <= |table|
    ensures n == 0 <==> forall i :: 0 <= i < |table| ==> !SameTriple(table[i], messageId, username, emoji)
  {
    if table == [] then 0
    else
      var rest := CountTriple(table[1..], messageId, username, emoji);
      assert forall i :: 1 <= i < |table| ==> table[i] == table[1..][i - 1];
      (if SameTriple(table[0], messageId, username, emoji) then 1 else 0) + rest
  }

  /** Position of the first matching row. */
  function FindTriple(table: seq<Reaction>, messageId: Id, username: string, emoji: string): (i: nat)
    requires CountTriple(table, messageId, username, emoji) > 0
    ensures i < |table| && SameTriple(table[i], messageId, username, emoji)
  {
    if SameTriple(table[0], messageId, username, emoji) then 0
    else FindTriple(table[1..], messageId, username, emoji) + 1
  }

  /** What `.maybeSingle()` answers: no row, the one row's id, or an error
      when the request fails or more than one row matches. */
  datatype Lookup = Absent | Found(id: nat) | LookupFailed

  function LookupTriple(table: seq<Reaction>, messageId: Id, username: string, emoji: string,
                        requestFails: bool): (l: Lookup)
    ensures l == LookupFailed <==> requestFails || CountTriple(table, messageId, username, emoji) > 1
    ensures l == Absent <==> !requestFails && CountTriple(table, messageId, username, emoji) == 0
    ensures l.Found? ==> exists i :: 0 <= i < |table| && SameTriple(table[i], messageId, username, emoji) &&
                                     table[i].id == l.id
  {
    var n := CountTriple(table, messageId, username, emoji);
    if requestFails || n > 1 then LookupFailed
    else if n == 0 then Absent
    else Found(table[FindTriple(table, messageId, username, emoji)].id)
  }

  /** `delete().eq('id', id)`. */
  function RemoveId(table: seq<Reaction>, id: nat): (r: seq<Reaction>)
    ensures forall x :: x in r <==> x in table && x.id != id
    ensures (forall i :: 0 <= i < |table| ==> table[i].id != id) ==> r == table
  {
    Filter(table, (x: Reaction) => x.id != id)
  }

  /** The backend's side of one toggle: whether the lookup fails, whether
      the delete or insert fails, and the id a new row gets. */
  datatype Backend = Backend(lookupFails: bool, writeFails: bool, newId: nat)

  /** `toggleReaction(messageId, username, emoji)` on the table. */
  function Toggle(table: seq<Reaction>, messageId: Id, username: string, emoji: string, b: Backend): (r: seq<Reaction>)
    ensures b.lookupFails || b.writeFails ==> r == table
    ensures CountTriple(table, messageId, username, emoji) > 1 ==> r == table
    ensures !b.lookupFails && !b.writeFails && CountTriple(table, messageId, username, emoji) == 0 ==>
              r == table + [Reaction(b.newId, messageId, username, emoji)]
    ensures !b.lookupFails && !b.writeFails && CountTriple(table, messageId, username, emoji) == 1 ==>
              exists i :: (0 <= i < |table| && SameTriple(table[i], messageId, username, emoji) &&
                           forall x :: x in r <==> x in table && x.id != table[i].id)
  {
    match LookupTriple(table, messageId, username, emoji, b.lookupFails)
    case LookupFailed => table
    case Found(id) => if b.writeFails then table else RemoveId(table, id)
    case Absent => if b.writeFails then table else table + [Reaction(b.newId, messageId, username, emoji)]
  }

  /** Row ids are the table's primary key. */
  predicate UniqueIds(table: seq<Reaction>) {
    forall i, j :: 0 <= i < j < |table| ==> table[i].id != table[j].id
  }

  predicate Fresh(table: seq<Reaction>, id: nat) {
    forall i :: 0 <= i < |table| ==> table[i].id != id
  }

  lemma {:induction false} CountTripleAppend(table: seq<Reaction>, x: Reaction, messageId: Id, username: string, emoji: string)
    ensures CountTriple(table + [x], messageId, username, emoji) ==
            CountTriple(table, messageId, username, emoji) + (if SameTriple(x, messageId, username, emoji) then 1 else 0)
  {
    if table != [] {
      assert (table + [x])[1..] == table[1..] + [x];
      CountTripleAppend(table[1..], x, messageId, username, emoji);
    }
  }

  /** With at most one matching row, two matching rows are the same row. */
  lemma {:induction false} CountOneUnique(table: seq<Reaction>, messageId: Id, username: string, emoji: string, i: nat, j: nat)
    requires CountTriple(table, messageId, username, emoji) <= 1
    requires i < j < |table|
    requires SameTriple(table[i], messageId, username, emoji)
    ensures !SameTriple(table[j], messageId, username, emoji)
  {
    var tail := table[1..];
    assert table[j] == tail[j - 1];
    if i == 0 {
      assert CountTriple(tail, messageId, username, emoji) == 0;
    } else {
      assert table[i] == tail[i - 1];
      CountOneUnique(tail, messageId, username, emoji, i - 1, j - 1);
    }
  }

  /** A successful toggle touches no row of another triple, as long as row
      ids are unique. */
  lemma OtherTriplesUntouched(table: seq<Reaction>, messageId: Id, username: string, emoji: string, b: Backend, x: Reaction)
    requires UniqueIds(table)
    requires !SameTriple(x, messageId, username, emoji)
    ensures x in Toggle(table, messageId, username, emoji, b) <==> x in table
  {
    var r := Toggle(table, messageId, username, emoji, b);
    var n := CountTriple(table, messageId, username, emoji);
    if b.lookupFails || b.writeFails || n > 1 {
      assert r == table;
    } else if n == 0 {
      var added := Reaction(b.newId, messageId, username, emoji);
      assert r == table + [added] && x != added;
    } else {
      var k := FindTriple(table, messageId, username, emoji);
      assert r == RemoveId(table, table[k].id);
      if x in table {
        var j :| 0 <= j < |table| && table[j] == x;
        assert j != k;
      }
    }
  }

  /** Toggling a reaction that is not there, then toggling it again, gives
      back exactly the original table. */
  lemma ToggleTwiceFromAbsent(table: seq<Reaction>, messageId: Id, username: string, emoji: string, b1: Backend, b2: Backend)
    requires CountTriple(table, messageId, username, emoji) == 0
    requires !b1.lookupFails && !b1.writeFails && !b2.lookupFails && !b2.writeFails
    requires Fresh(table, b1.newId)
    ensures Toggle(Toggle(table, messageId, username, emoji, b1), messageId, username, emoji, b2) == table
  {
    var added := Reaction(b1.newId, messageId, username, emoji);
    var t1 := Toggle(table, messageId, username, emoji, b1);
    assert t1 == table + [added];
    CountTripleAppend(table, added, messageId, username, emoji);
    assert LookupTriple(t1, messageId, username, emoji, false) == Found(b1.newId) by {
      assert forall k :: 0 <= k < |table| ==> t1[k] == table[k];
    }
    var t2 := RemoveId(t1, b1.newId);
    assert t2 == Filter(table, (x: Reaction) => x.id != b1.newId) + [] by {
      FilterAppendDropped(table, added, b1.newId);
    }
  }

  lemma {:induction false} FilterAppendDropped(table: seq<Reaction>, x: Reaction, id: nat)
    requires x.id == id
    ensures Filter(table + [x], (y: Reaction) => y.id != id) == Filter(table, (y: Reaction) => y.id != id)
  {
    if table != [] {
      assert (table + [x])[1..] == table[1..] + [x];
      FilterAppendDropped(table[1..], x, id);
    }
  }

  /** Once the one matching row's id is gone, no row of the triple is left. */
  lemma RemovedTripleGone(table: seq<Reaction>, messageId: Id, username: string, emoji: string,
                          i: nat, t1: seq<Reaction>, x: Reaction)
    requires UniqueIds(table)
    requires CountTriple(table, messageId, username, emoji) == 1
    requires i < |table| && SameTriple(table[i], messageId, username, emoji)
    requires forall y :: y in t1 <==> y in table && y.id != table[i].id
    requires x in t1
    ensures !SameTriple(x, messageId, username, emoji)
  {
    var j :| 0 <= j < |table| && table[j] == x;
    if SameTriple(x, messageId, username, emoji) {
      if j < i {
        CountOneUnique(table, messageId, username, emoji, j, i);
      } else if i < j {
        CountOneUnique(table, messageId, username, emoji, i, j);
      }
    }
  }

  /** Toggling a present reaction removes every row of its triple and no
      other row. */
  lemma ToggleRemovesTriple(table: seq<Reaction>, messageId: Id, username: string, emoji: string, b: Backend)
    requires UniqueIds(table)
    requires CountTriple(table, messageId, username, emoji) == 1
    requires !b.lookupFails && !b.writeFails
    ensures var t := Toggle(table, messageId, username, emoji, b);
            && CountTriple(t, messageId, username, emoji) == 0
            && forall x :: !SameTriple(x, messageId, username, emoji) ==> (x in t <==> x in table)
  {
    var t := Toggle(table, messageId, username, emoji, b);
    var i := FindTriple(table, messageId, username, emoji);
    assert t == RemoveId(table, table[i].id);
    forall k | 0 <= k < |t|
      ensures !SameTriple(t[k], messageId, username, emoji)
    {
      RemovedTripleGone(table, messageId, username, emoji, i, t, t[k]);
    }
    forall x | !SameTriple(x, messageId, username, emoji)
      ensures x in t <==> x in table
    {
      OtherTriplesUntouched(table, messageId, username, emoji, b, x);
    }
  }

  /** Toggling an absent reaction appends one row of its triple. */
  lemma ToggleAddsTriple(table: seq<Reaction>, messageId: Id, username: string, emoji: string, b: Backend)
    requires CountTriple(table, messageId, username, emoji) == 0
    requires !b.lookupFails && !b.writeFails
    ensures var t := Toggle(table, messageId, username, emoji, b);
            && t == table + [Reaction(b.newId, messageId, username, emoji)]
            && CountTriple(t, messageId, username, emoji) == 1
  {
    CountTripleAppend(table, Reaction(b.newId, messageId, username, emoji), messageId, username, emoji);
  }

  /** Toggling a reaction that is there, then toggling it again, leaves
      every other row in place and the triple present exactly once again
      (as a new row with a new id, at the end). */
  lemma ToggleTwiceFromPresent(table: seq<Reaction>, messageId: Id, username: string, emoji: string, b1: Backend, b2: Backend)
    requires UniqueIds(table)
    requires CountTriple(table, messageId, username, emoji) == 1
    requires !b1.lookupFails && !b1.writeFails && !b2.lookupFails && !b2.writeFails
    ensures var t2 := Toggle(Toggle(table, messageId, username, emoji, b1), messageId, username, emoji, b2);
            && CountTriple(t2, messageId, username, emoji) == 1
            && forall x :: !SameTriple(x, messageId, username, emoji) ==> (x in t2 <==> x in table)
  {
    var t1 := Toggle(table, messageId, username, emoji, b1);
    ToggleRemovesTriple(table, messageId, username, emoji, b1);
    ToggleAddsTriple(t1, messageId, username, emoji, b2);
  }
}

=== FILE: records.dfy ===
/** The rows and records the chat client passes around: message rows as the
    database returns them, messages as the client keeps them (content
    decrypted, reactions attached), reaction rows and room rows. */
module Records {
  import opened Text

  datatype Option<+T> = None | Some(value: T) {
    function GetOr(default: T): T {
      match this
      case Some(v) => v
      case None => default
    }
  }

  /** The answer of one backend query: an error, or the data. */
  datatype Response<+T> = Failed | Data(value: T)

  /** A row identifier as the transport delivers it. The same row can arrive
      with a numeric id from one channel and a string id from another, which
      is why the client compares ids through `String(id)`. */
  datatype Id = NumId(n: nat) | StrId(s: string)

  /** `String(id)`. */
  function IdKey(id: Id): string {
    match id
    case NumId(n) => NatToString(n)
    case StrId(s) => s
  }

  /** `String(x)` of a nullable id: JavaScript renders `null` as "null". */
  function NullableKey(id: Option<Id>): string {
    match id
    case None => "null"
    case Some(i) => IdKey(i)
  }

  /** JavaScript truthiness of an id: the number 0 and the empty string are
      falsy. */
  predicate Truthy(id: Id) {
    match id
    case NumId(n) => n != 0
    case StrId(s) => s != ""
  }

  /** Two ids read alike exactly when they are the same id, or a number and
      the string of its decimal digits. */
  lemma IdKeyEqual(a: Id, b: Id)
    ensures IdKey(a) == IdKey(b) <==>
              || a == b
              || (a.NumId? && b.StrId? && b.s == NatToString(a.n))
              || (a.StrId? && b.NumId? && a.s == NatToString(b.n))
  {
    if a.NumId? && b.NumId? {
      NatToStringInjective(a.n, b.n);
    }
  }

  /** A missing reply id reads "null": no numeric id matches it, only the
      string id "null". A present id reads as the id itself. */
  lemma NullableKeyMatches(id: Option<Id>, other: Id)
    ensures id.Some? ==> NullableKey(id) == IdKey(id.value)
    ensures id.None? ==> (NullableKey(id) == IdKey(other) <==> other == StrId("null"))
  {
    if id.None? && other.NumId? {
      var k := IdKey(other);
      assert '0' <= k[0] <= '9';
      assert "null"[0] == 'n';
    }
  }

  /** An id is falsy exactly when it reads "0" as a number or "" as a
      string. */
  lemma TruthyByKey(id: Id)
    ensures id.NumId? ==> (Truthy(id) <==> IdKey(id) != "0")
    ensures id.StrId? ==> (Truthy(id) <==> IdKey(id) != [])
  {
    if id.NumId? {
      assert NatToString(0) == "0" by { assert Digit(0) == '0'; }
      NatToStringInjective(id.n, 0);
    }
  }

  /** A row of the `message_reactions` table. */
  datatype Reaction = Reaction(id: nat, messageId: Id, username: string, emoji: string)

  /** A row of the `messages` table: content still encrypted, reactions
      present only when the query joined them. */
  datatype Row = Row(
    id: Id,
    roomCode: string,
    username: string,
    content: string,
    imageUrl: Option<string>,
    replyTo: Option<Id>,
    isEdited: bool,
    createdAt: int,
    reactions: Option<seq<Reaction>>)

  /** A message as the client holds it: the row with decrypted content and a
      reaction list that is always present. */
  datatype Message = Message(
    id: Id,
    roomCode: string,
    username: string,
    content: string,
    imageUrl: Option<string>,
    replyTo: Option<Id>,
    isEdited: bool,
    createdAt: int,
    reactions: seq<Reaction>)

  /** A row of the `rooms` table; `secretCode` is stored encrypted. */
  datatype Room = Room(roomName: string, secretCode: string)

  /** A file picked for upload: its name and MIME type. */
  datatype File = File(name: string, mimeType: string)

  /** `{ ...row, content, reactions }`: every other column is copied. */
  function WithContent(row: Row, content: string, reactions: seq<Reaction>): (m: Message)
    ensures m.id == row.id && m.roomCode == row.roomCode && m.username == row.username
    ensures m.imageUrl == row.imageUrl && m.replyTo == row.replyTo
    ensures m.isEdited == row.isEdited && m.createdAt == row.createdAt
    ensures m.content == content && m.reactions == reactions
  {
    Message(row.id, row.roomCode, row.username, content, row.imageUrl, row.replyTo,
            row.isEdited, row.createdAt, reactions)
  }

  /** The list is in chronological order (ties allowed). */
  predicate Ascending(ms: seq<Message>) {
    forall i, j :: 0 <= i < j < |ms| ==> ms[i].createdAt <= ms[j].createdAt
  }

  /** Rows newest first, as a query ordered by `created_at` descending
      returns them. */
  predicate Descending(rows: seq<Row>) {
    forall i, j :: 0 <= i < j < |rows| ==> rows[i].createdAt >= rows[j].createdAt
  }

  /** The rows of a table that a `delete().eq(...)` leaves: those `keep`
      holds of, in their order. */
  function Filter<T(!new)>(s: seq<T>, keep: T -> bool): (r: seq<T>)
    ensures forall x :: x in r <==> x in s && keep(x)
    ensures |r| <= |s|
    ensures (forall i :: 0 <= i < |s| ==> keep(s[i])) ==> r == s
  {
    if s == [] then []
    else
      var rest := Filter(s[1..], keep);
      assert forall i :: 1 <= i < |s| ==> s[i] == s[1..][i - 1];
      if keep(s[0]) then [s[0]] + rest else rest
  }
}

=== FILE: room_manager.dfy ===
/** `RoomManager`: the administration page. It lists the rooms with their
    codes decrypted, creates a room or updates every room of the edited
    name, and deletes a room together with the messages filed under its
    code. Write errors are not reported to the user; they are parameters
    here. */
module RoomManager {
  import opened Records
  import opened Crypto
  import opened Login

  /** The stored rooms as the page lists them: codes decrypted, names and
      order kept. */
  function Decoded(c: Cipher, rooms: seq<Room>): (shown: seq<Room>)
    ensures |shown| == |rooms|
    ensures forall i :: 0 <= i < |rooms| ==>
              shown[i] == Room(rooms[i].roomName, Decrypt(c, rooms[i].secretCode))
  {
    if rooms == [] then []
    else [Room(rooms[0].roomName, Decrypt(c, rooms[0].secretCode))] + Decoded(c, rooms[1..])
  }

  /** `fetchRooms`: a failed fetch leaves the list as it was. */
  function FetchRooms(c: Cipher, shown: seq<Room>, fetched: Response<seq<Room>>): (r: seq<Room>)
    ensures fetched.Failed? ==> r == shown
    ensures fetched.Data? ==> |r| == |fetched.value|
    ensures fetched.Data? ==>
              forall i :: 0 <= i < |r| ==> r[i].roomName == fetched.value[i].roomName &&
                                           r[i].secretCode == Decrypt(c, fetched.value[i].secretCode)
  {
    match fetched
    case Failed => shown
    case Data(rooms) => Decoded(c, rooms)
  }

  /** `update(...).eq('room_name', name)`: every room with that name gets
      the new name and code. */
  function Rename(rooms: seq<Room>, oldName: string, updated: Room): (r: seq<Room>)
    ensures |r| == |rooms|
    ensures forall i :: 0 <= i < |rooms| ==>
              r[i] == if rooms[i].roomName == oldName then updated else rooms[i]
  {
    if rooms == [] then []
    else [if rooms[0].roomName == oldName then updated else rooms[0]] + Rename(rooms[1..], oldName, updated)
  }

  /** The page's own state besides the list: the room being edited. */
  datatype AdminForm = AdminForm(editing: Option<Room>)

  /** `handleSubmit` on the `rooms` table. While editing, a successful write
      renames every room of the edited name and ends editing; a failed one
      changes nothing and editing goes on. Otherwise the room is added
      (a failed insert is ignored and adds nothing). The code is stored
      encrypted. */
  function SubmitRoom(c: Cipher, rooms: seq<Room>, form: AdminForm, name: string, code: string,
                      writeOk: bool): (r: (seq<Room>, AdminForm))
    ensures !writeOk ==> r == (rooms, form)
    ensures writeOk && form.editing.None? ==>
              r == (rooms + [Room(name, Encrypt(c, code))], form)
    ensures writeOk && form.editing.Some? ==>
              && r.1 == AdminForm(None)
              && |r.0| == |rooms|
              && forall i :: 0 <= i < |rooms| ==>
                   (rooms[i].roomName == form.editing.value.roomName ==> r.0[i] == Room(name, Encrypt(c, code))) &&
                   (rooms[i].roomName != form.editing.value.roomName ==> r.0[i] == rooms[i])
  {
    if !writeOk then (rooms, form)
    else
      match form.editing
      case Some(room) => (Rename(rooms, room.roomName, Room(name, Encrypt(c, code))), AdminForm(None))
      case None => (rooms + [Room(name, Encrypt(c, code))], form)
  }

  /** `handleDelete` for a listed room (its code already decrypted). A
      declined confirmation changes nothing. Otherwise the messages filed
      under that code go, then the rooms of that name; each delete can fail
      on its own without stopping the other. */
  function DeleteRoom(rooms: seq<Room>, messages: seq<Row>, room: Room, confirmed: bool,
                      messagesOk: bool, roomsOk: bool): (r: (seq<Room>, seq<Row>))
    ensures !confirmed ==> r == (rooms, messages)
    ensures confirmed && messagesOk ==>
              forall m :: m in r.1 <==> m in messages && m.roomCode != room.secretCode
    ensures confirmed && roomsOk ==>
              forall x :: x in r.0 <==> x in rooms && x.roomName != room.roomName
    ensures !messagesOk ==> r.1 == messages
    ensures !roomsOk ==> r.0 == rooms
  {
    if !confirmed then (rooms, messages)
    else
      var ms := if messagesOk then Filter(messages, (m: Row) => m.roomCode != room.secretCode) else messages;
      var rs := if roomsOk then Filter(rooms, (x: Room) => x.roomName != room.roomName) else rooms;
      (rs, ms)
  }

  /** A room created with a code the cipher round-trips admits a login with
      that code. */
  lemma CreatedRoomAdmitsLogin(c: Cipher, rooms: seq<Room>, name: string, code: string, username: string)
    requires InvertsOn(c, code)
    ensures var created := SubmitRoom(c, rooms, AdminForm(None), name, code, true).0;
            HandleLogin(c, username, code, Data(created)).session.Some?
  {
    var created := SubmitRoom(c, rooms, AdminForm(None), name, code, true).0;
    RoundTrip(c, code);
    assert CodeMatches(c, created[|rooms|], code);
  }

  /** After an edit, the administration list shows the entered code for
      every renamed room, as long as the cipher round-trips it. */
  lemma EditShowsEnteredCode(c: Cipher, rooms: seq<Room>, editing: Room, name: string, code: string, i: nat)
    requires InvertsOn(c, code)
    requires i < |rooms| && rooms[i].roomName == editing.roomName
    ensures var updated := SubmitRoom(c, rooms, AdminForm(Some(editing)), name, code, true).0;
            FetchRooms(c, [], Data(updated))[i] == Room(name, code)
  {
    RoundTrip(c, code);
  }

  /** Deleting a listed room whose stored code round-trips removes the
      whole history of the room: every message filed under the code people
      log in with, and every room of its name. */
  lemma DeleteRemovesHistory(c: Cipher, rooms: seq<Room>, messages: seq<Row>, i: nat, code: string)
    requires i < |rooms| && rooms[i].secretCode == Encrypt(c, code)
    requires InvertsOn(c, code)
    ensures var r := DeleteRoom(rooms, messages, Decoded(c, rooms)[i], true, true, true);
            && (forall m :: m in r.1 ==> m.roomCode != code)
            && (forall m :: m in messages && m.roomCode != code ==> m in r.1)
            && (forall x :: x in r.0 ==> x.roomName != rooms[i].roomName)
  {
    RoundTrip(c, code);
  }

  /** A room whose stored code does not decrypt is listed with the sentinel
      as its code, and deleting it removes no message of a real code: its
      own history stays behind. */
  lemma UndecryptableRoomKeepsHistory(c: Cipher, rooms: seq<Room>, messages: seq<Row>, i: nat)
    requires i < |rooms| && rooms[i].secretCode != [] && Undecryptable(c, rooms[i].secretCode)
    requires forall k :: 0 <= k < |messages| ==> messages[k].roomCode != Sentinel
    ensures DeleteRoom(rooms, messages, Decoded(c, rooms)[i], true, true, true).1 == messages
  {
  }
}

=== FILE: text.dfy ===
/** String primitives the chat client borrows from JavaScript: `trim`,
    `toLowerCase`, `startsWith`, `endsWith`, `includes` and the decimal
    rendering `String(n)` of a non-negative number. Case folding is ASCII
    only; every other character is left as it is. */
module Text {

  /** The characters `String.prototype.trim` strips: the ECMAScript
      WhiteSpace set (tab, vertical tab, form feed, space, no-break space,
      byte order mark and every Zs space separator) and the four line
      terminators. */
  const WhitespaceChars: set<char> := {
    '\t', '\n', '\U{000B}', '\U{000C}', '\r', ' ', '\U{00A0}', '\U{1680}',
    '\U{2000}', '\U{2001}', '\U{2002}', '\U{2003}', '\U{2004}', '\U{2005}',
    '\U{2006}', '\U{2007}', '\U{2008}', '\U{2009}', '\U{200A}',
    '\U{2028}', '\U{2029}', '\U{202F}', '\U{205F}', '\U{3000}', '\U{FEFF}'
  }

  predicate IsWhitespace(c: char) {
    c in WhitespaceChars
  }

  /** `!s.trim()`: the string is empty once whitespace is stripped. */
  predicate IsBlank(s: string) {
    forall i :: 0 <= i < |s| ==> IsWhitespace(s[i])
  }

  /** The end of the run of whitespace that starts at `i`. */
  function SkipForward(s: string, i: nat): (n: nat)
    requires i <= |s|
    ensures i <= n <= |s|
    ensures forall k :: i <= k < n ==> IsWhitespace(s[k])
    ensures n < |s| ==> !IsWhitespace(s[n])
    decreases |s| - i
  {
    if i < |s| && IsWhitespace(s[i]) then SkipForward(s, i + 1) else i
  }

  /** The start of the run of whitespace that ends at `j`. */
  function SkipBackward(s: string, j: nat): (n: nat)
    requires j <= |s|
    ensures n <= j
    ensures forall k :: n <= k < j ==> IsWhitespace(s[k])
    ensures n > 0 ==> !IsWhitespace(s[n - 1])
  {
    if j > 0 && IsWhitespace(s[j - 1]) then SkipBackward(s, j - 1) else j
  }

  /** `trimStart`: `s` from its first non-whitespace character on. */
  function TrimStart(s: string): (r: string)
    ensures |r| <= |s| && r == s[|s| - |r|..]
    ensures r == [] || !IsWhitespace(r[0])
    ensures forall i :: 0 <= i < |s| - |r| ==> IsWhitespace(s[i])
  {
    s[SkipForward(s, 0)..]
  }

  /** `trimEnd`: `s` up to and including its last non-whitespace
      character. */
  function TrimEnd(s: string): (r: string)
    ensures |r| <= |s| && r == s[..|r|]
    ensures r == [] || !IsWhitespace(r[|r| - 1])
    ensures forall i :: |r| <= i < |s| ==> IsWhitespace(s[i])
  {
    s[..SkipBackward(s, |s|)]
  }

  /** `s.trim()`: `s` without its leading and trailing whitespace. */
  function Trim(s: string): (r: string)
    ensures r == [] <==> IsBlank(s)
    ensures r == [] || (!IsWhitespace(r[0]) && !IsWhitespace(r[|r| - 1]))
  {
    TrimBlank(s);
    TrimEnd(TrimStart(s))
  }

  /** Trimming leaves nothing exactly when every character is whitespace:
      a blank string loses everything from the front, and when nothing
      survives the back the front part already held no other character. */
  lemma TrimBlank(s: string)
    ensures TrimEnd(TrimStart(s)) == [] <==> IsBlank(s)
  {
    assert IsBlank(s) ==> TrimStart(s) == [];
    assert TrimEnd(TrimStart(s)) == [] ==> TrimStart(s) == [];
  }

  /** Whitespace around a string with non-whitespace ends is exactly what
      trimming removes. */
  lemma TrimPadded(before: string, s: string, after: string)
    requires IsBlank(before) && IsBlank(after)
    requires s != [] && !IsWhitespace(s[0]) && !IsWhitespace(s[|s| - 1])
    ensures Trim(before + s + after) == s
  {
    var whole := before + s + after;
    assert forall i :: 0 <= i < |before| ==> whole[i] == before[i];
    assert whole[|before|] == s[0];
    var a := TrimStart(whole);
    assert |whole| - |a| == |before|;
    assert a == s + after;
    assert forall i :: |s| <= i < |a| ==> a[i] == after[i - |s|];
    assert a[|s| - 1] == s[|s| - 1];
  }

  /** ASCII `toLowerCase` of a single character. */
  function LowerChar(c: char): char {
    if 'A' <= c <= 'Z' then (c as int + 32) as char else c
  }

  function Lower(s: string): (r: string)
    ensures |r| == |s|
    ensures forall i :: 0 <= i < |s| ==> r[i] == LowerChar(s[i])
    ensures forall i :: 0 <= i < |s| ==> !('A' <= r[i] <= 'Z')
  {
    seq(|s|, i requires 0 <= i < |s| => LowerChar(s[i]))
  }

  /** Lower-casing twice is lower-casing once. */
  lemma LowerIdempotent(s: string)
    ensures Lower(Lower(s)) == Lower(s)
  {
    var l := Lower(s);
    assert forall i :: 0 <= i < |l| ==> LowerChar(l[i]) == l[i];
  }

  predicate StartsWith(s: string, prefix: string) {
    |prefix| <= |s| && s[..|prefix|] == prefix
  }

  predicate EndsWith(s: string, suffix: string) {
    |suffix| <= |s| && s[|s| - |suffix|..] == suffix
  }

  /** `s.includes(needle)`: `needle` occurs at some offset of `s`. */
  predicate Contains(s: string, needle: string) {
    exists i :: 0 <= i <= |s| - |needle| && StartsWith(s[i..], needle)
  }

  /** Every string includes the empty string and itself, and no string
      includes a longer one. */
  lemma ContainsBasics(s: string, needle: string)
    ensures Contains(s, [])
    ensures Contains(s, s)
    ensures Contains(s, needle) ==> |needle| <= |s|
  {
    assert StartsWith(s[0..], []);
    assert StartsWith(s[0..], s);
  }

  /** A needle inside a part of a string is inside the whole string. */
  lemma ContainsInMiddle(before: string, mid: string, after: string, needle: string)
    requires Contains(mid, needle)
    ensures Contains(before + mid + after, needle)
  {
    var i :| 0 <= i <= |mid| - |needle| && StartsWith(mid[i..], needle);
    var whole := before + mid + after;
    assert whole[|before| + i..][..|needle|] == mid[i..][..|needle|];
  }

  /** The character of one decimal digit. */
  function Digit(d: nat): char
    requires d < 10
  {
    ('0' as int + d) as char
  }

  /** `String(n)` for a non-negative integer: its decimal digits, without
      leading zeros. */
  function NatToString(n: nat): (r: string)
    ensures |r| >= 1
    ensures forall i :: 0 <= i < |r| ==> '0' <= r[i] <= '9'
    ensures |r| > 1 ==> r[0] != '0'
  {
    if n < 10 then [Digit(n)] else NatToString(n / 10) + [Digit(n % 10)]
  }

  /** A single digit renders exactly the numbers below ten. */
  lemma NatToStringShort(n: nat)
    ensures |NatToString(n)| == 1 <==> n < 10
  {
  }

  /** The number a string of decimal digits denotes. */
  function DigitsValue(s: string): nat
    requires forall i :: 0 <= i < |s| ==> '0' <= s[i] <= '9'
  {
    if s == [] then 0
    else DigitsValue(s[..|s| - 1]) * 10 + (s[|s| - 1] as int - '0' as int)
  }

  /** Reading the decimal rendering back gives the number. */
  lemma {:induction false} NatToStringRoundTrip(n: nat)
    ensures DigitsValue(NatToString(n)) == n
  {
    var r := NatToString(n);
    if n < 10 {
      assert r[..0] == [];
    } else {
      NatToStringRoundTrip(n / 10);
      assert r[..|r| - 1] == NatToString(n / 10);
    }
  }

  /** Different numbers render differently. */
  lemma NatToStringInjective(a: nat, b: nat)
    ensures NatToString(a) == NatToString(b) ==> a == b
  {
    NatToStringRoundTrip(a);
    NatToStringRoundTrip(b);
  }
}

=== FILE: use_chat.dfy ===
/** `useChat`: the message list of one room. Three inputs change it: a page
    fetch (the initial page replaces the list, an older page is put in
    front of it), realtime change events on the `messages` table, and
    presence snapshots, which only produce the list of online names.
    The backend's answers are parameters; every React state update is an
    explicit transition of `ChatState`. */
module ChatStore {
  import opened Records
  import opened Crypto

  /** Rows fetched per page. */
  const PageSize: nat := 30

  datatype ChatState = ChatState(messages: seq<Message>, isLoading: bool, hasMore: bool)

  const InitialState: ChatState := ChatState([], false, true)

  /** One page query: the room's rows, newest first, at most `limit` of
      them, and when `olderThan` is set only rows strictly older than it. */
  datatype PageQuery = PageQuery(roomCode: string, limit: nat, olderThan: Option<int>)

  /** `fetchMessages(isLoadMore)` up to its `await`: a no-op without a room
      code or while a fetch is in flight; otherwise the loading flag is set
      and the page query issued, bounded by the oldest loaded message when
      loading more. */
  function StartFetch(st: ChatState, secretCode: string, isLoadMore: bool): (r: (ChatState, Option<PageQuery>))
    ensures secretCode == [] || st.isLoading ==> r == (st, None)
    ensures secretCode != [] && !st.isLoading ==>
              && r.0 == st.(isLoading := true)
              && r.1.Some?
              && r.1.value.roomCode == secretCode
              && r.1.value.limit == PageSize
              && (r.1.value.olderThan.Some? <==> isLoadMore && |st.messages| > 0)
              && (r.1.value.olderThan.Some? ==> r.1.value.olderThan.value == st.messages[0].createdAt)
  {
    if secretCode == [] || st.isLoading then (st, None)
    else
      var older := if isLoadMore && |st.messages| > 0 then Some(st.messages[0].createdAt) else None;
      (st.(isLoading := true), Some(PageQuery(secretCode, PageSize, older)))
  }

  /** A freshly opened room fetches its first page: an unbounded query for
      the room's newest 30 rows, and an honest answer leaves the list in
      chronological order. */
  lemma OpenRoomFetchesFirstPage(secretCode: string, c: Cipher, rows: seq<Row>)
    requires secretCode != []
    requires Answers(PageQuery(secretCode, PageSize, None), rows)
    ensures StartFetch(InitialState, secretCode, false) ==
              (InitialState.(isLoading := true), Some(PageQuery(secretCode, PageSize, None)))
    ensures Ascending(FinishFetch(StartFetch(InitialState, secretCode, false).0, c, false, Data(rows)).messages)
  {
    InitialLoadAscending(InitialState, secretCode, c, rows);
  }

  /** `loadMore`: a fetch of the older page. It does not look at `hasMore`. */
  function LoadMore(st: ChatState, secretCode: string): (r: (ChatState, Option<PageQuery>))
    ensures r.1.Some? <==> secretCode != [] && !st.isLoading
  {
    StartFetch(st, secretCode, true)
  }

  /** What a backend that honours `q` may answer. */
  ghost predicate Answers(q: PageQuery, rows: seq<Row>) {
    && |rows| <= q.limit
    && Descending(rows)
    && (forall i :: 0 <= i < |rows| ==> rows[i].roomCode == q.roomCode)
    && (q.olderThan.Some? ==> forall i :: 0 <= i < |rows| ==> rows[i].createdAt < q.olderThan.value)
  }

  /** A fetched row as the list holds it: content decrypted, joined
      reactions or an empty list. */
  function Decorate(c: Cipher, row: Row): (m: Message)
    ensures m.content == Decrypt(c, row.content)
    ensures row.reactions.Some? ==> m.reactions == row.reactions.value
    ensures row.reactions.None? ==> m.reactions == []
    ensures m.id == row.id && m.username == row.username && m.createdAt == row.createdAt
    ensures m.roomCode == row.roomCode && m.imageUrl == row.imageUrl && m.replyTo == row.replyTo
    ensures m.isEdited == row.isEdited
  {
    WithContent(row, Decrypt(c, row.content), row.reactions.GetOr([]))
  }

  /** `data.reverse().map(...)`: the page oldest first, decorated. */
  function ProcessPage(c: Cipher, data: seq<Row>): (r: seq<Message>)
    ensures |r| == |data|
    ensures forall i :: 0 <= i < |data| ==> r[i] == Decorate(c, data[|data| - 1 - i])
  {
    if data == [] then [] else ProcessPage(c, data[1..]) + [Decorate(c, data[0])]
  }

  /** `fetchMessages` after its `await`. An error only clears the loading
      flag. A page replaces the list, or is put in front of the current list
      when loading more; `hasMore` records whether the page was full. */
  function FinishFetch(st: ChatState, c: Cipher, isLoadMore: bool, outcome: Response<seq<Row>>): (r: ChatState)
    ensures !r.isLoading
    ensures outcome.Failed? ==> r.messages == st.messages && r.hasMore == st.hasMore
    ensures outcome.Data? ==> (r.hasMore <==> |outcome.value| == PageSize)
    ensures outcome.Data? && !isLoadMore ==> r.messages == ProcessPage(c, outcome.value)
    ensures outcome.Data? && isLoadMore ==>
              && |r.messages| == |outcome.value| + |st.messages|
              && r.messages[..|outcome.value|] == ProcessPage(c, outcome.value)
              && r.messages[|outcome.value|..] == st.messages
  {
    match outcome
    case Failed => st.(isLoading := false)
    case Data(data) =>
      var processed := ProcessPage(c, data);
      var messages := if isLoadMore then processed + st.messages else processed;
      assert isLoadMore ==> messages[..|data|] == processed && messages[|data|..] == st.messages;
      ChatState(messages, false, |data| == PageSize)
  }

  lemma ProcessPageAscending(c: Cipher, data: seq<Row>)
    requires Descending(data)
    ensures Ascending(ProcessPage(c, data))
  {
    var r := ProcessPage(c, data);
    forall i, j | 0 <= i < j < |r|
      ensures r[i].createdAt <= r[j].createdAt
    {
      assert r[i] == Decorate(c, data[|data| - 1 - i]);
      assert r[j] == Decorate(c, data[|data| - 1 - j]);
    }
  }

  /** The initial page, as a backend honouring the query returns it, leaves
      the list in chronological order. */
  lemma InitialLoadAscending(st: ChatState, secretCode: string, c: Cipher, rows: seq<Row>)
    requires secretCode != [] && !st.isLoading
    requires Answers(StartFetch(st, secretCode, false).1.value, rows)
    ensures Ascending(FinishFetch(StartFetch(st, secretCode, false).0, c, false, Data(rows)).messages)
  {
    ProcessPageAscending(c, rows);
  }

  /** Loading an older page keeps a chronological list chronological: the
      page is oldest first and strictly older than the message that was
      first. */
  lemma LoadOlderAscending(st: ChatState, secretCode: string, c: Cipher, rows: seq<Row>)
    requires Ascending(st.messages)
    requires secretCode != [] && !st.isLoading
    requires Answers(LoadMore(st, secretCode).1.value, rows)
    ensures Ascending(FinishFetch(LoadMore(st, secretCode).0, c, true, Data(rows)).messages)
  {
    var page := ProcessPage(c, rows);
    ProcessPageAscending(c, rows);
    var r := FinishFetch(LoadMore(st, secretCode).0, c, true, Data(rows)).messages;
    assert r == page + st.messages;
    forall i, j | 0 <= i < j < |r|
      ensures r[i].createdAt <= r[j].createdAt
    {
      if j < |page| {
        assert r[i] == page[i] && r[j] == page[j];
      } else if i >= |page| {
        assert r[i] == st.messages[i - |page|] && r[j] == st.messages[j - |page|];
      } else {
        assert r[i] == Decorate(c, rows[|rows| - 1 - i]);
        assert r[i].createdAt < st.messages[0].createdAt;
        assert r[j] == st.messages[j - |page|];
      }
    }
  }

  /** A short page clears `hasMore`, but a later `loadMore` still issues a
      query: nothing in the hook consults the flag. */
  lemma LoadMoreIgnoresHasMore(st: ChatState, secretCode: string, c: Cipher, rows: seq<Row>)
    requires secretCode != [] && !st.isLoading && |rows| < PageSize
    ensures !FinishFetch(st, c, true, Data(rows)).hasMore
    ensures LoadMore(FinishFetch(st, c, true, Data(rows)), secretCode).1.Some?
  {
  }

  // ---------------------------------------------------------------------
  // Realtime changes on the `messages` table

  datatype EventType = Insert | Update | Delete | Unrecognized

  /** One change notification: the new row (INSERT, UPDATE) and the id of
      the old row (DELETE). */
  datatype Change = Change(eventType: EventType, newRow: Row, oldId: Id)

  /** Number of messages whose `String(id)` is `k`. */
  function CountKey(ms: seq<Message>, k: string): (n: nat)
    ensures n <= |ms|
  {
    if ms == [] then 0 else (if IdKey(ms[0].id) == k then 1 else 0) + CountKey(ms[1..], k)
  }

  /** `a` is `b` with some elements left out, the rest in their order. */
  ghost predicate Subsequence(a: seq<Message>, b: seq<Message>)
    decreases |b|
  {
    if a == [] then true
    else if b == [] then false
    else (a[0] == b[0] && Subsequence(a[1..], b[1..])) || Subsequence(a, b[1..])
  }

  /** `prev.filter(m => String(m.id) !== k)`. */
  function RemoveKey(ms: seq<Message>, k: string): (r: seq<Message>)
    ensures forall m :: m in r <==> m in ms && IdKey(m.id) != k
    ensures |r| == |ms| - CountKey(ms, k)
    ensures Subsequence(r, ms)
  {
    if ms == [] then []
    else if IdKey(ms[0].id) == k then RemoveKey(ms[1..], k)
    else
      var rest := RemoveKey(ms[1..], k);
      assert ([ms[0]] + rest)[1..] == rest;
      [ms[0]] + rest
  }

  lemma SubsequenceMembers(a: seq<Message>, b: seq<Message>)
    requires Subsequence(a, b)
    ensures forall m :: m in a ==> m in b
    decreases |b|
  {
    if a != [] && b != [] {
      if a[0] == b[0] && Subsequence(a[1..], b[1..]) {
        SubsequenceMembers(a[1..], b[1..]);
        assert a == [a[0]] + a[1..];
      } else {
        SubsequenceMembers(a, b[1..]);
      }
    }
  }

  /** Leaving messages out of a chronological list keeps it chronological. */
  lemma {:induction false} SubsequenceAscending(a: seq<Message>, b: seq<Message>)
    requires Subsequence(a, b) && Ascending(b)
    ensures Ascending(a)
    decreases |b|
  {
    if a != [] && b != [] {
      assert Ascending(b[1..]);
      if a[0] == b[0] && Subsequence(a[1..], b[1..]) {
        SubsequenceAscending(a[1..], b[1..]);
        SubsequenceMembers(a[1..], b[1..]);
        forall i, j | 0 <= i < j < |a|
          ensures a[i].createdAt <= a[j].createdAt
        {
          if i == 0 {
            assert a[j] == a[1..][j - 1];
            assert a[j] in b[1..];
          } else {
            assert a[i] == a[1..][i - 1] && a[j] == a[1..][j - 1];
          }
        }
      } else {
        SubsequenceAscending(a, b[1..]);
      }
    }
  }

  /** The message an INSERT appends: decrypted, with no reactions. */
  function Inserted(c: Cipher, row: Row): (m: Message)
    ensures m.content == Decrypt(c, row.content) && m.reactions == []
    ensures m.id == row.id && m.username == row.username && m.createdAt == row.createdAt
    ensures m.roomCode == row.roomCode && m.imageUrl == row.imageUrl && m.replyTo == row.replyTo
    ensures m.isEdited == row.isEdited
  {
    WithContent(row, Decrypt(c, row.content), [])
  }

  /** The list after one change event. INSERT appends without looking for
      an existing message with the same id and without placing it by time;
      UPDATE replaces, in place, every message whose `String(id)` matches,
      keeping its reactions; DELETE drops every such message; any other
      event type leaves the list as it was. */
  function ApplyChange(c: Cipher, prev: seq<Message>, ch: Change): (r: seq<Message>)
    ensures ch.eventType == Insert ==>
              |r| == |prev| + 1 && r[..|prev|] == prev && r[|prev|] == Inserted(c, ch.newRow)
    ensures ch.eventType == Update ==>
              && |r| == |prev|
              && forall i :: 0 <= i < |prev| ==>
                   r[i] == (if IdKey(prev[i].id) == IdKey(ch.newRow.id)
                            then WithContent(ch.newRow, Decrypt(c, ch.newRow.content), prev[i].reactions)
                            else prev[i])
    ensures ch.eventType == Delete ==>
              && (forall m :: m in r <==> m in prev && IdKey(m.id) != IdKey(ch.oldId))
              && |r| == |prev| - CountKey(prev, IdKey(ch.oldId))
              && Subsequence(r, prev)
    ensures ch.eventType == Unrecognized ==> r == prev
  {
    match ch.eventType
    case Insert =>
      var r := prev + [Inserted(c, ch.newRow)];
      assert r[..|prev|] == prev;
      r
    case Update =>
      var k := IdKey(ch.newRow.id);
      var content := Decrypt(c, ch.newRow.content);
      seq(|prev|, i requires 0 <= i < |prev| =>
        if IdKey(prev[i].id) == k then WithContent(ch.newRow, content, prev[i].reactions) else prev[i])
    case Delete => RemoveKey(prev, IdKey(ch.oldId))
    case Unrecognized => prev
  }

  /** A DELETE keeps the remaining messages in their order, whatever that
      order is, so a chronological list stays chronological. */
  lemma DeleteKeepsOrder(c: Cipher, prev: seq<Message>, ch: Change)
    requires ch.eventType == Delete
    ensures Subsequence(ApplyChange(c, prev, ch), prev)
    ensures Ascending(prev) ==> Ascending(ApplyChange(c, prev, ch))
  {
    if Ascending(prev) {
      SubsequenceAscending(ApplyChange(c, prev, ch), prev);
    }
  }

  /** An UPDATE keeps timestamps of untouched messages and the order of a
      list whose updated messages keep their creation time. */
  lemma UpdateKeepsOrder(c: Cipher, prev: seq<Message>, ch: Change)
    requires ch.eventType == Update && Ascending(prev)
    requires forall i :: 0 <= i < |prev| && IdKey(prev[i].id) == IdKey(ch.newRow.id) ==>
               prev[i].createdAt == ch.newRow.createdAt
    ensures Ascending(ApplyChange(c, prev, ch))
  {
    var r := ApplyChange(c, prev, ch);
    forall i | 0 <= i < |r|
      ensures r[i].createdAt == prev[i].createdAt
    {
    }
  }

  /** INSERT does not de-duplicate: echoing a row already in the list
      leaves two messages with its id. */
  lemma InsertKeepsDuplicates(c: Cipher, prev: seq<Message>, ch: Change, i: nat)
    requires ch.eventType == Insert && i < |prev| && IdKey(prev[i].id) == IdKey(ch.newRow.id)
    ensures CountKey(ApplyChange(c, prev, ch), IdKey(ch.newRow.id)) >= 2
  {
    var r := ApplyChange(c, prev, ch);
    CountKeyAppend(prev, Inserted(c, ch.newRow), IdKey(ch.newRow.id));
    CountKeyPositive(prev, i, IdKey(ch.newRow.id));
    assert r == prev + [Inserted(c, ch.newRow)];
  }

  lemma {:induction false} CountKeyAppend(ms: seq<Message>, m: Message, k: string)
    ensures CountKey(ms + [m], k) == CountKey(ms, k) + (if IdKey(m.id) == k then 1 else 0)
  {
    if ms != [] {
      assert (ms + [m])[1..] == ms[1..] + [m];
      CountKeyAppend(ms[1..], m, k);
    }
  }

  lemma {:induction false} CountKeyPositive(ms: seq<Message>, i: nat, k: string)
    requires i < |ms| && IdKey(ms[i].id) == k
    ensures CountKey(ms, k) >= 1
  {
    if i > 0 {
      CountKeyPositive(ms[1..], i - 1, k);
    }
  }

  /** INSERT appends rather than placing by time: a message older than the
      last one lands at the end and the list is no longer chronological. */
  lemma InsertCanBreakOrder(c: Cipher, prev: seq<Message>, ch: Change)
    requires ch.eventType == Insert && |prev| > 0
    requires ch.newRow.createdAt < prev[|prev| - 1].createdAt
    ensures !Ascending(ApplyChange(c, prev, ch))
  {
    var r := ApplyChange(c, prev, ch);
    assert r[|prev| - 1] == prev[|prev| - 1] && r[|prev|].createdAt == ch.newRow.createdAt;
  }

  // ---------------------------------------------------------------------
  // Presence

  /** One tracked presence payload; `user` may be missing. */
  datatype PresencePayload = PresencePayload(user: Option<string>)

  /** The truthy `user` fields of one key's payloads, in order. */
  function UsersOf(ps: seq<PresencePayload>): (r: seq<string>)
    ensures forall x :: x in r <==> x != [] && PresencePayload(Some(x)) in ps
  {
    if ps == [] then []
    else
      var rest := UsersOf(ps[1..]);
      assert forall p :: p in ps <==> p == ps[0] || p in ps[1..];
      match ps[0].user
      case Some(u) => if u != [] then [u] + rest else rest
      case None => rest
  }

  /** `Object.values(state).flatMap(v => v.map(p => p.user)).filter(Boolean)`
      over the presence state, its keys in order. */
  function PresenceNames(state: seq<seq<PresencePayload>>): (r: seq<string>)
    ensures forall x :: x in r <==>
              x != [] && exists k :: 0 <= k < |state| && PresencePayload(Some(x)) in state[k]
  {
    if state == [] then []
    else
      var r := UsersOf(state[0]) + PresenceNames(state[1..]);
      assert forall k :: 1 <= k < |state| ==> state[k] == state[1..][k - 1];
      r
  }

  /** `v.map(p => p.user)` keeps payload order: a payload appended to a
      key's list adds its name at the end exactly when the name is truthy. */
  lemma {:induction false} UsersOfAppend(ps: seq<PresencePayload>, p: PresencePayload)
    ensures UsersOf(ps + [p]) == UsersOf(ps) + (if p.user.Some? && p.user.value != [] then [p.user.value] else [])
  {
    if ps != [] {
      assert (ps + [p])[0] == ps[0];
      assert (ps + [p])[1..] == ps[1..] + [p];
      UsersOfAppend(ps[1..], p);
    }
  }

  /** `flatMap` concatenates the keys' names in key order: a key appended
      to the state adds its names, in order, at the end. */
  lemma {:induction false} PresenceNamesAppend(state: seq<seq<PresencePayload>>, v: seq<PresencePayload>)
    ensures PresenceNames(state + [v]) == PresenceNames(state) + UsersOf(v)
  {
    if state == [] {
      assert PresenceNames([v]) == UsersOf(v) + PresenceNames([]);
    } else {
      assert (state + [v])[0] == state[0];
      assert (state + [v])[1..] == state[1..] + [v];
      PresenceNamesAppend(state[1..], v);
    }
  }

  predicate NoDuplicates(s: seq<string>) {
    forall i, j :: 0 <= i < j < |s| ==> s[i] != s[j]
  }

  /** Position of the first occurrence of `x` in `s`. */
  function FirstIndex(s: seq<string>, x: string): (i: nat)
    requires x in s
    ensures i < |s| && s[i] == x && x !in s[..i]
  {
    if s[0] == x then 0
    else
      var j := FirstIndex(s[1..], x);
      assert s[..j + 1] == [s[0]] + s[1..][..j];
      j + 1
  }

  /** `[...new Set(names)]`: each name once, in order of first occurrence. */
  method Distinct(names: seq<string>) returns (r: seq<string>)
    ensures NoDuplicates(r)
    ensures forall x :: x in r <==> x in names
    ensures forall a, b :: 0 <= a < b < |r| ==> FirstIndex(names, r[a]) < FirstIndex(names, r[b])
  {
    r := [];
    var i := 0;
    while i < |names|
      invariant 0 <= i <= |names|
      invariant NoDuplicates(r)
      invariant forall x :: x in r <==> x in names[..i]
      invariant forall a :: 0 <= a < |r| ==> r[a] in names && FirstIndex(names, r[a]) < i
      invariant forall a, b :: 0 <= a < b < |r| ==> FirstIndex(names, r[a]) < FirstIndex(names, r[b])
    {
      var x := names[i];
      assert names[..i + 1] == names[..i] + [x];
      if x !in r {
        assert FirstIndex(names, x) == i;
        r := r + [x];
      }
      i := i + 1;
    }
  }

  /** The presence `sync` handler: the online names, each once, and their
      number. */
  method SyncPresence(state: seq<seq<PresencePayload>>) returns (activeUsers: nat, activeUserList: seq<string>)
    ensures activeUsers == |activeUserList|
    ensures NoDuplicates(activeUserList)
    ensures forall x :: x in activeUserList <==> x in PresenceNames(state)
    ensures forall x :: x in activeUserList <==>
              x != [] && exists k :: 0 <= k < |state| && PresencePayload(Some(x)) in state[k]
    ensures forall a, b :: 0 <= a < b < |activeUserList| ==>
              FirstIndex(PresenceNames(state), activeUserList[a]) < FirstIndex(PresenceNames(state), activeUserList[b])
  {
    activeUserList := Distinct(PresenceNames(state));
    activeUsers := |activeUserList|;
  }
}

=== FILE: use_search.dfy ===
/** `useSearch`: the ids of the messages that contain the search term,
    ignoring case, and a cursor that steps through them circularly. The
    effect that recomputes the matches is `Recompute`; `Step` says when it
    runs. */
module Search {
  import opened Text
  import opened Records

  datatype SearchState = SearchState(term: string, matches: seq<Id>, cursor: int)

  const InitialSearch: SearchState := SearchState([], [], -1)

  /** The filter of the effect: the content or the author name contains the
      term, both lower-cased. The term is used untrimmed. */
  predicate MatchesTerm(m: Message, term: string) {
    Contains(Lower(m.content), Lower(term)) || Contains(Lower(m.username), Lower(term))
  }

  /** The case of the term does not matter, and a term found in the text or
      in the author name matches whatever surrounds it. */
  lemma MatchIgnoresTermCase(m: Message, term: string)
    ensures MatchesTerm(m, term) <==> MatchesTerm(m, Lower(term))
    ensures forall a, b :: m.content == a + term + b ==> MatchesTerm(m, term)
  {
    LowerIdempotent(term);
    forall a, b | m.content == a + term + b ensures MatchesTerm(m, term) {
      ContainsBasics(Lower(term), Lower(term));
      var l := Lower(m.content);
      assert l == Lower(a) + Lower(term) + Lower(b);
      ContainsInMiddle(Lower(a), Lower(term), Lower(b), Lower(term));
    }
  }

  /** `messages.filter(MatchesTerm).map(msg => msg.id)`. */
  function MatchIds(ms: seq<Message>, term: string): (r: seq<Id>)
    ensures |r| <= |ms|
    ensures forall id :: id in r ==> exists i :: 0 <= i < |ms| && ms[i].id == id && MatchesTerm(ms[i], term)
    ensures forall i :: 0 <= i < |ms| && MatchesTerm(ms[i], term) ==> ms[i].id in r
  {
    if ms == [] then []
    else
      var rest := MatchIds(ms[1..], term);
      assert forall i :: 1 <= i < |ms| ==> ms[i] == ms[1..][i - 1];
      (if MatchesTerm(ms[0], term) then [ms[0].id] else []) + rest
  }

  /** The matches keep message order: a message appended to the list adds
      its id at the end of the matches exactly when it matches. */
  lemma {:induction false} MatchIdsAppend(ms: seq<Message>, m: Message, term: string)
    ensures MatchIds(ms + [m], term) == MatchIds(ms, term) + (if MatchesTerm(m, term) then [m.id] else [])
  {
    if ms != [] {
      assert (ms + [m])[1..] == ms[1..] + [m];
      MatchIdsAppend(ms[1..], m, term);
    }
  }

  /** The first match is the id of the first matching message. */
  lemma {:induction false} FirstMatchIsFirst(ms: seq<Message>, term: string, i: nat)
    requires i < |ms| && MatchesTerm(ms[i], term)
    requires forall j :: 0 <= j < i ==> !MatchesTerm(ms[j], term)
    ensures |MatchIds(ms, term)| > 0 && MatchIds(ms, term)[0] == ms[i].id
  {
    if i > 0 {
      FirstMatchIsFirst(ms[1..], term, i - 1);
    }
  }

  /** The cursor is -1 with no matches and indexes a match otherwise. */
  predicate CursorValid(s: SearchState) {
    if |s.matches| == 0 then s.cursor == -1 else 0 <= s.cursor < |s.matches|
  }

  /** The effect: a blank term clears the matches; otherwise the matches are
      recomputed. The cursor lands on the first match, or -1 without one. */
  function Recompute(ms: seq<Message>, term: string): (r: SearchState)
    ensures r.term == term
    ensures IsBlank(term) ==> r.matches == []
    ensures !IsBlank(term) ==> r.matches == MatchIds(ms, term)
    ensures r.cursor == (if |r.matches| > 0 then 0 else -1)
    ensures CursorValid(r)
  {
    if IsBlank(term) then SearchState(term, [], -1)
    else
      var matches := MatchIds(ms, term);
      SearchState(term, matches, if |matches| > 0 then 0 else -1)
  }

  /** JavaScript's `%`, whose result takes the sign of the dividend. */
  function JsRem(a: int, b: int): (r: int)
    requires b > 0
    ensures a >= 0 ==> r == a % b
    ensures a < 0 ==> -b < r <= 0
    ensures a == b * TruncDiv(a, b) + r
  {
    if a >= 0 then a % b else -((-a) % b)
  }

  /** Integer division rounded toward zero, the quotient JavaScript's `%`
      leaves its remainder from. */
  function TruncDiv(a: int, b: int): int
    requires b > 0
  {
    if a >= 0 then a / b else -((-a) / b)
  }

  /** Below twice the divisor, the remainder wraps around at most once. */
  lemma RemWrap(a: int, b: int)
    requires 0 <= a < 2 * b
    ensures JsRem(a, b) == if a < b then a else a - b
  {
    if a >= b {
      ModOnce(a, b);
    }
  }

  /** Between one and two divisors, the remainder is what is left after
      taking the divisor away once. */
  lemma ModOnce(a: int, b: int)
    requires 0 < b <= a < 2 * b
    ensures a % b == a - b
  {
    var q := a / b;
    assert a == b * q + a % b;
    assert q >= 2 ==> b * q >= b * 2;
    assert q <= 0 ==> b * q <= 0;
  }

  /** `nextMatch`. */
  function Next(s: SearchState): (r: SearchState)
    ensures r.term == s.term && r.matches == s.matches
    ensures |s.matches| == 0 ==> r == s
    ensures CursorValid(s) ==> CursorValid(r)
    ensures CursorValid(s) && |s.matches| > 0 ==>
              r.cursor == (if s.cursor == |s.matches| - 1 then 0 else s.cursor + 1)
  {
    if |s.matches| > 0 then
      var n := |s.matches|;
      if 0 <= s.cursor < n then RemWrap(s.cursor + 1, n); s.(cursor := JsRem(s.cursor + 1, n))
      else s.(cursor := JsRem(s.cursor + 1, n))
    else s
  }

  /** `prevMatch`. */
  function Prev(s: SearchState): (r: SearchState)
    ensures r.term == s.term && r.matches == s.matches
    ensures |s.matches| == 0 ==> r == s
    ensures CursorValid(s) ==> CursorValid(r)
    ensures CursorValid(s) && |s.matches| > 0 ==>
              r.cursor == (if s.cursor == 0 then |s.matches| - 1 else s.cursor - 1)
  {
    if |s.matches| > 0 then
      var n := |s.matches|;
      if 0 <= s.cursor < n then RemWrap(s.cursor - 1 + n, n); s.(cursor := JsRem(s.cursor - 1 + n, n))
      else s.(cursor := JsRem(s.cursor - 1 + n, n))
    else s
  }

  lemma PrevUndoesNext(s: SearchState)
    requires CursorValid(s)
    ensures Prev(Next(s)) == s
    ensures Next(Prev(s)) == s
  {
  }

  /** `nextMatch` applied `k` times. */
  function NextN(s: SearchState, k: nat): SearchState {
    if k == 0 then s else Next(NextN(s, k - 1))
  }

  /** After `k` steps forward, at most one full turn, the cursor has moved
      `k` places around the circle of matches. */
  lemma {:induction false} NextNCursor(s: SearchState, k: nat)
    requires CursorValid(s) && |s.matches| > 0 && k <= |s.matches|
    ensures NextN(s, k).matches == s.matches && NextN(s, k).term == s.term
    ensures CursorValid(NextN(s, k))
    ensures NextN(s, k).cursor ==
              (if s.cursor + k < |s.matches| then s.cursor + k else s.cursor + k - |s.matches|)
  {
    if k > 0 {
      NextNCursor(s, k - 1);
    }
  }

  /** Stepping forward once per match comes back to where it started. */
  lemma NextCycles(s: SearchState)
    requires CursorValid(s)
    ensures NextN(s, |s.matches|) == s
  {
    if |s.matches| > 0 {
      NextNCursor(s, |s.matches|);
    }
  }

  /** Without matches, stepping forward any number of times changes
      nothing. */
  lemma {:induction false} NextNZero(s: SearchState, k: nat)
    requires |s.matches| == 0
    ensures NextN(s, k) == s
  {
    if k > 0 {
      NextNZero(s, k - 1);
    }
  }

  /** What the user and the chat can do to the search: type a term, change
      the message list, step forward, step back. */
  datatype SearchEvent = SetTerm(term: string) | MessagesChanged(messages: seq<Message>) | NextMatch | PrevMatch

  datatype SearchView = SearchView(search: SearchState, messages: seq<Message>)

  /** One event. The effect runs when the term changes (setting the same
      term again is not a change) and whenever the message list is replaced,
      which every message update does. */
  function Step(v: SearchView, e: SearchEvent): (r: SearchView)
    ensures e.NextMatch? || e.PrevMatch? ==> r.messages == v.messages
    ensures e.NextMatch? ==> r.search == Next(v.search)
    ensures e.PrevMatch? ==> r.search == Prev(v.search)
    ensures e.MessagesChanged? ==> r.messages == e.messages && r.search == Recompute(e.messages, v.search.term)
    ensures e.MessagesChanged? ==> r.search.cursor == (if |r.search.matches| > 0 then 0 else -1)
    ensures e.SetTerm? && e.term == v.search.term ==> r == v
    ensures e.SetTerm? && e.term != v.search.term ==>
              r.messages == v.messages && r.search == Recompute(v.messages, e.term)
  {
    match e
    case SetTerm(t) =>
      if t == v.search.term then v else v.(search := Recompute(v.messages, t))
    case MessagesChanged(ms) => SearchView(Recompute(ms, v.search.term), ms)
    case NextMatch => v.(search := Next(v.search))
    case PrevMatch => v.(search := Prev(v.search))
  }

  function Run(v: SearchView, es: seq<SearchEvent>): SearchView
    decreases |es|
  {
    if es == [] then v else Run(Step(v, es[0]), es[1..])
  }

  /** Any sequence of events keeps the cursor in range: -1 without matches,
      within the match list otherwise. */
  lemma {:induction false} RunKeepsCursorValid(v: SearchView, es: seq<SearchEvent>)
    requires CursorValid(v.search)
    ensures CursorValid(Run(v, es).search)
    decreases |es|
  {
    if es != [] {
      RunKeepsCursorValid(Step(v, es[0]), es[1..]);
    }
  }

  /** A search that starts empty, as the hook's state does, keeps its cursor
      valid through any sequence of events. */
  lemma SessionKeepsCursorValid(ms: seq<Message>, es: seq<SearchEvent>)
    ensures CursorValid(Run(SearchView(InitialSearch, ms), es).search)
  {
    RunKeepsCursorValid(SearchView(InitialSearch, ms), es);
  }
}
